=== FILE: README.md ===
# Language-lab content rules, modelled in Dafny

The language lab is a small web application for language learners. A
manifest lists the languages and their levels. Each level has a bundle of
four JSON files: grammar, vocabulary, conversation and patterns. The pages
built on these files are:

- a static page script, which holds the language layer and an appendix section;
- a React appendix page;
- grammar-topic pages with tabs, conjugation tables, quick checks and a
  practice accordion;
- practice modules for dialogs and sentence patterns.

A small Python backend suggests capitalisation and punctuation fixes for a
sentence.

This project models the deterministic rules underneath, as immutable
datatypes with pure functions and transition functions:

- which language and level are chosen initially;
- how bundles are loaded, cached and reported panel by panel;
- how the query string is merged;
- how the sentence-correction rule builds its answer;
- the state machines of the learner widgets.

Every network request goes through an oracle, a function from a path to
`Ok(json)` or `Err`. Each loader returns the paths it requested, so "a
cache hit makes no request" is stated as "the request list is empty".

Modules (one per source component, plus shared helpers):

| module | file | models |
|---|---|---|
| `Wrappers` | wrappers.dfy | `Option` and `Result` |
| `Text` | text.dfy | ASCII case, JavaScript `trim` and Python `rstrip`, `includes`, `join`/`split`, decimal numbers, `capitalize` |
| `Json` | json.dfy | parsed JSON values, JavaScript truthiness and `.length` |
| `Seqs` | seqs.dfy | searching a list for its first match (`find`) |
| `Panels` | panels.dfy | the `{ message, busy, error }` status record and the four appendix panels |
| `SearchParams` | search_params.dfy | `URLSearchParams` `get`/`set`/`delete` on an ordered list of pairs |
| `Manifest` | manifest.dfy | the manifest, the language picker, the initial language, the level choice |
| `BundleLoader` | bundle_loader.dfy | resource paths, optional fetches, the memoised bundle cache and its key |
| `MainPage` | main_page.dfy | the static page script: language data, label, load status, appendix panels |
| `AppendixPage` | appendix_page.dfy | the React appendix page: manifest load, level effect, toggles, query string, bundle load |
| `SentenceCorrection` | sentence_correction.dfy | the backend `correct` rule |
| `QuickCheck` | quick_check.dfy | answer normalisation, the accepted-answer list, the card's status machine |
| `DialogSimulation` | dialog_simulation.dfy | dialog navigation, the visible prefix, the counter, speaker styles |
| `PatternLearning` | pattern_learning.dfy | pattern selection, the answers map, case-insensitive checking |
| `ExerciseAccordion` | exercise_accordion.dfy | the single-open accordion |
| `ConjugationTable` | conjugation_table.dfy | index reset, irregular detection and highlighting, copy text |
| `GrammarTopic` | grammar_topic.dfy | topic lookup, tab enablement and fallback, translation overlay, practice sections |

The models follow the code, including one behaviour that looks accidental.
`loadLanguage` in `frontend/scripts/main.js` sets the active language before
it reads `data.language.name`. So a payload without a `language` block
reports "Could not load CODE data." as an error, and yet the code stays
active. `MainPage.LoadLanguage` keeps this behaviour, and
`MainPage.MissingLanguageBlockStillActivates` exhibits it.

The appendix cache key `lang + "-" + level` is injective only when the
language codes, or else the level ids, contain no `-`. `BundleLoader`
proves both halves of that statement. `BundleLoader.CacheKeyCollision`
shows two different selections sharing one cache entry: the second one
then receives the first one's bundle without a request.

## Model

| member | source | states |
|---|---|---|
| Text.Upper | frontend/scripts/main.js:129 | upper-casing keeps the length and maps each character by the ASCII case rule |
| Text.Lower | frontend/src/components/QuickCheck.jsx:4 | lower-casing keeps the length and maps each character by the ASCII case rule |
| Text.LowerTwice | frontend/src/components/QuickCheck.jsx:4 | lower-casing twice is lower-casing once |
| Text.LowerKeepsTrimmed | frontend/src/components/QuickCheck.jsx:4 | a string trimmed at both ends stays trimmed once lower-cased |
| Text.TrimRight | backend/app.py:120 | the result is a prefix of the input, every dropped character is whitespace, and the kept part does not end in whitespace |
| Text.TrimLeft | frontend/src/components/QuickCheck.jsx:4 | the result is a suffix of the input, every dropped character is whitespace, and the kept part does not start with whitespace |
| Text.TrimLeftFixed | frontend/src/components/QuickCheck.jsx:4 | a string that does not start with whitespace is unchanged by left trimming |
| Text.TrimRightFixed | backend/app.py:120 | a string that does not end in whitespace is unchanged by right trimming |
| Text.TrimRightAgrees | backend/app.py:117-124 | two strings equal after the first character, whose first characters agree on being whitespace, lose the same amount to right trimming |
| Text.ContainsIffOccurs | frontend/src/components/ConjugationTable.jsx:33 | `includes` holds exactly when the needle starts at some position of the string |
| Text.Split | frontend/src/components/ConjugationTable.jsx:44-48 | splitting always yields at least one piece |
| Text.SplitPrefix | frontend/src/components/ConjugationTable.jsx:44-48 | splitting a separator-free head followed by a tail glues the head onto the tail's first piece |
| Text.SplitJoin | frontend/src/components/ConjugationTable.jsx:44-48 | splitting a newline-joined list of newline-free lines gives the lines back |
| Text.DigitChar | frontend/scripts/main.js:354 | every decimal digit is written as a digit character |
| Text.NatToString | frontend/scripts/main.js:354 | a count prints as a non-empty string of digits |
| Text.ParseNatToString | frontend/src/pages/Appendix.jsx:428 | reading back a printed count gives the count |
| Text.NatToStringInjective | frontend/src/pages/Appendix.jsx:428 | different counts print differently |
| Text.Capitalize | frontend/src/pages/Appendix.jsx:461-466 | '' stays ''; only the first character is upper-cased; the rest and the length are unchanged |
| Text.CapitalizeIdempotent | frontend/scripts/main.js:535-540 | capitalising twice is capitalising once |
| SearchParams.Get | frontend/src/pages/Appendix.jsx:52 | `get` returns the value of the first pair with that key, or nothing exactly when no pair has it |
| SearchParams.Omit | frontend/src/pages/Appendix.jsx:33 | after removing a set of keys none of them remains, every pair with another name is kept, and nothing else appears; the list does not grow |
| SearchParams.OmitAppend | frontend/src/pages/Appendix.jsx:33 | removing keys from a list with one more pair at the end keeps that pair, last, exactly when its name is not removed, so the kept pairs stay in order |
| SearchParams.OmitNothing | frontend/src/pages/Appendix.jsx:33 | removing names that no pair carries leaves the list unchanged |
| SearchParams.OmitOmit | frontend/src/pages/Appendix.jsx:31-37 | removing key set a and then key set b is removing their union |
| SearchParams.GetOmit | frontend/src/pages/Appendix.jsx:31-37 | removing other keys does not change what `get` returns for a key |
| SearchParams.SetFrame | frontend/src/pages/Appendix.jsx:35 | `set` leaves every pair with another key in place and in order |
| SearchParams.DeleteFrame | frontend/src/pages/Appendix.jsx:33 | `delete` leaves every pair with another key in place and in order |
| SearchParams.SetGetSame | frontend/src/pages/Appendix.jsx:35 | after `set`, `get` returns the new value, and the list is one pair longer than after deleting the key |
| SearchParams.SetGetOther | frontend/src/pages/Appendix.jsx:35 | `set` does not change `get` for any other key |
| SearchParams.DeleteGet | frontend/src/pages/Appendix.jsx:33 | after `delete` the key is gone and `get` is unchanged for any other key |
| SearchParams.UpdateGet | frontend/src/pages/Appendix.jsx:28-40 | after merging, a key takes its last update, deleted when null, undefined or ''; a key with no update keeps its old value |
| SearchParams.UpdateFrame | frontend/src/pages/Appendix.jsx:28-40 | merging leaves every pair whose key is not updated in place and in order |
| SearchParams.UpdateTwo | frontend/src/pages/Appendix.jsx:28-40 | merging two distinct keys gives each its effective value and leaves every other pair in place |
| SearchParams.UpdateOne | frontend/src/pages/Appendix.jsx:28-40 | merging one key gives it its effective value and leaves every other pair in place |
| Seqs.FindFirst | frontend/scripts/main.js:118 | the position found holds the first element satisfying the test; nothing is found only when no element does |
| Manifest.FirstLive | frontend/scripts/main.js:118 | the index found is the first language with no status or status "live"; nothing is found when no language is live |
| Manifest.FindLanguage | frontend/src/pages/Appendix.jsx:72 | the index found is the first language with the code; nothing is found when no language has it |
| Manifest.LanguageOption | frontend/scripts/main.js:98-104 | an option is disabled exactly when the language is not live, and only then does its text end in " - coming soon"; its value is the code and its text starts with `name (nativeName)` |
| Manifest.LanguagePicker | frontend/scripts/main.js:95-107 | the picker has one option per language, in manifest order, and none when the manifest has no `languages` field |
| Manifest.ResolveInitialLanguage | frontend/scripts/main.js:109-120 | null without a manifest or a language array; a set default is returned unchanged, even if unlisted; otherwise the first live language, else null |
| Manifest.ResolveInitialLanguageForAppendix | frontend/src/pages/Appendix.jsx:447-459 | '' without languages; a requested code is used exactly when some entry lists it; then the default; then the first live language; else '' |
| Manifest.ResolveVariantsAgree | frontend/src/pages/Appendix.jsx:447-459 | without a listed request the appendix page chooses what the static page chooses, with '' for null |
| Manifest.UnlistedRequestIgnored | frontend/src/pages/Appendix.jsx:451 | a requested code that no entry lists changes nothing |
| Manifest.ResolvedIsListedOrDefault | frontend/src/pages/Appendix.jsx:447-459 | a language the appendix page resolves to is listed in the manifest or is its default language |
| Manifest.ChooseLevel | frontend/src/pages/Appendix.jsx:72-75 | the requested level if the language offers it, else the first level id, else ''; the result is always '' or an offered level |
| Manifest.ChooseLevelStable | frontend/src/pages/Appendix.jsx:72-79 | requesting the chosen level chooses it again |
| BundleLoader.BundlePaths | frontend/scripts/main.js:322-327 | a bundle is four resource paths |
| BundleLoader.FetchOptional | frontend/scripts/main.js:335-341 | an optional fetch never fails: a failed request becomes null, a successful one its payload |
| BundleLoader.FetchBundle | frontend/scripts/main.js:322-330 | a bundle loads exactly when grammar, vocabulary and conversation load; patterns only fall back to null |
| BundleLoader.GetAppendixData | frontend/scripts/main.js:316-333 | a cached key returns its bundle with no request; otherwise the four paths are requested; only a successful bundle is cached, under `lang-level` |
| BundleLoader.LoadIsMemoised | frontend/scripts/main.js:316-333 | after a successful load the same selection returns the same bundle with no request, whatever the network does; after a failure it requests again |
| BundleLoader.FirstDashOfKey | frontend/scripts/main.js:317 | in a key built from a dash-free code, the first dash comes right after the code |
| BundleLoader.AfterLastDashOfKey | frontend/scripts/main.js:317 | in a key built from a dash-free level, the level starts right after the last dash |
| BundleLoader.CacheKeyInjectiveOnCodes | frontend/scripts/main.js:317 | dash-free codes never share a cache key |
| BundleLoader.CacheKeyInjectiveOnLevels | frontend/src/pages/Appendix.jsx:127 | dash-free levels never share a cache key |
| BundleLoader.CacheKeyCollision | frontend/src/pages/Appendix.jsx:127-141 | ("a-b", "c") and ("a", "b-c") share a key, so the second selection is served the first one's bundle without a request |
| BundleLoader.LoadKeepsCoherence | frontend/scripts/main.js:316-333 | against a network that answers consistently, loading a dash-free code keeps every cache entry equal to a fresh load of its selection |
| MainPage.GetLanguageData | frontend/scripts/main.js:149-157 | a cached code returns its payload with no request; otherwise one request, cached only on success |
| MainPage.LanguageDataMemoised | frontend/scripts/main.js:149-157 | after a successful load the same code returns the cached payload with no request, whatever the network does; failures are never cached |
| MainPage.LabelParts | frontend/scripts/main.js:167-180 | no label without a truthy `language` block; otherwise the name, then the native name only if present and different, then "Level X" only if a level exists |
| MainPage.LabelIsNameAlone | frontend/scripts/main.js:172-180 | with no distinct native name and no level, the label is the name alone |
| MainPage.LoadLanguage | frontend/scripts/main.js:122-147 | an empty code does nothing; a non-silent load first shows "Loading CODE content..." as busy; afterwards nothing is busy, the code is active exactly when the data loaded or it already was, and the status is an error exactly when loading failed or the payload has no `language` block; an error reads "Could not load CODE data." and a success "NAME data ready."; while pending only the status changes; a failed request keeps the active code and the label, and loaded data rewrites the label from its `language` block |
| MainPage.LoadLanguageKeepsActiveCached | frontend/scripts/main.js:131-134 | a code becomes active only after its data is cached, so the active code's data is always in the cache |
| MainPage.ReloadActiveMakesNoRequest | frontend/scripts/main.js:131-157 | loading the active language again makes no request, keeps the cache and the active code, and gives the same outcome whatever the network does |
| MainPage.MissingLanguageBlockStillActivates | frontend/scripts/main.js:133-141 | a payload without a `language` block reports an error yet leaves the code active |
| MainPage.CountStatus | frontend/scripts/main.js:348-354 | a count of 0 shows the empty message and n > 0 shows "Loaded n NOUN(s)."; never busy, never an error |
| MainPage.CountStatusReadsBack | frontend/scripts/main.js:353-354 | the number in a "Loaded n ..." line reads back as the count, and the empty line announces no count |
| MainPage.RenderedPanels | frontend/scripts/main.js:343-480 | rendering a bundle leaves no panel busy or in error |
| MainPage.RenderedCountsReadBack | frontend/scripts/main.js:348-477 | each rendered panel announces exactly the number of items in its array, and an empty array announces no count |
| MainPage.MissingPatternsRenderEmpty | frontend/scripts/main.js:469-477 | a bundle with null patterns shows "No patterns provided for this level." |
| MainPage.LoadingPanels | frontend/scripts/main.js:295-298 | while a bundle loads all four panels are busy and none is in error |
| MainPage.FailedPanels | frontend/scripts/main.js:307-312 | on failure all four panels are in error and none is busy; only grammar carries "Unable to load appendix data." |
| MainPage.LoadAppendixBundle | frontend/scripts/main.js:290-314 | a no-op without a language or a level; otherwise all panels are busy while pending, and afterwards the panels are all failed when the bundle load failed or a render function throws on a null item, and are otherwise the rendered counts, with the cache and requests of `getAppendixData` |
| MainPage.CachedRenderFailureRepeats | frontend/scripts/main.js:300-333 | a cached bundle that makes a render function throw fails all four panels again on every load, with no request |
| MainPage.NullTopicFailsEveryPanel | frontend/scripts/main.js:300-313 | a fresh bundle with a null grammar topic fails every panel and is cached all the same |
| MainPage.SyncAppendixLanguage | frontend/scripts/main.js:240-253 | an empty code does nothing; a language whose first level id is non-empty loads that level's bundle; otherwise the panels are cleared with no request |
| MainPage.SyncRequestsOnlyFirstLevel | frontend/scripts/main.js:240-253 | switching the appendix language requests only the four files of its first level, exactly when that bundle is not cached, and caches it when it loads |
| AppendixPage.DescribeCollection | frontend/src/pages/Appendix.jsx:423-429 | a missing, falsy or empty collection gives the empty message; otherwise "Loaded n NOUN", singular exactly when n = 1; never busy, never an error |
| AppendixPage.DescribedCountReadsBack | frontend/src/pages/Appendix.jsx:428 | the message for a non-empty list starts "Loaded ", followed by digits that read back as the list's length |
| AppendixPage.AnnouncedPanels | frontend/src/pages/Appendix.jsx:167-174 | announcing a bundle leaves no panel busy or in error |
| AppendixPage.LoadingPanels | frontend/src/pages/Appendix.jsx:128-134 | while a bundle loads all four panels are busy and none is in error |
| AppendixPage.LoadAppendixBundle | frontend/src/pages/Appendix.jsx:126-165 | panels first go busy and the bundle is cleared; a cache hit makes no request and shows the cached bundle; a failed load puts the same error on all four panels; nothing else in the page state changes |
| AppendixPage.SelectionEffect | frontend/src/pages/Appendix.jsx:84-90 | both expanded items reset; with a language and a level selected, that pair's bundle loads into the collapsed state, with its requests, cache and panels; otherwise nothing else changes |
| AppendixPage.Toggle | frontend/src/pages/Appendix.jsx:92-104 | an empty id changes nothing; otherwise the id ends up expanded exactly when it was not, so at most that one item is expanded |
| AppendixPage.ToggleTwice | frontend/src/pages/Appendix.jsx:92-104 | toggling the same item twice, starting collapsed or with it open, restores the list |
| AppendixPage.ItemKey | frontend/src/pages/Appendix.jsx:255 | an item's key is its id, else its title, and is never empty |
| AppendixPage.PositionalKeysDistinct | frontend/src/pages/Appendix.jsx:255 | items with neither id nor title at different positions get different keys |
| AppendixPage.GrammarToggle | frontend/src/pages/Appendix.jsx:92-97 | the expanded grammar item follows `Toggle`'s rule and nothing else in the page state changes |
| AppendixPage.VocabularyToggle | frontend/src/pages/Appendix.jsx:99-104 | the expanded vocabulary set follows `Toggle`'s rule and nothing else in the page state changes |
| AppendixPage.LanguageChange | frontend/src/pages/Appendix.jsx:106-110 | the language is selected, the level cleared, `level` removed from the query, `language` set or removed, and every other parameter kept |
| AppendixPage.LevelChange | frontend/src/pages/Appendix.jsx:112-115 | the level is selected, both query parameters follow the selection, and every other parameter is kept |
| AppendixPage.LevelEffect | frontend/src/pages/Appendix.jsx:67-82 | no manifest or no language clears the level; otherwise the chosen level is selected; a query already naming it is untouched, and any other query gets that level and the selected language; every other parameter is kept |
| AppendixPage.LevelEffectSettles | frontend/src/pages/Appendix.jsx:67-82 | running the level effect again changes nothing |
| AppendixPage.ManifestLoaded | frontend/src/pages/Appendix.jsx:42-65 | a failed manifest sets only the error status; a loaded one is stored with "Manifest ready." and, when an initial language resolves, selects it and writes it to the query; nothing else in the page state changes and every other query parameter is kept |
| AppendixPage.ManifestLoadedOnMount | frontend/src/pages/Appendix.jsx:42-65 | on mount, a selected language is listed in the manifest or is its default, and the query names it; otherwise the query is left as it was |
| SentenceCorrection.Suggestions | backend/app.py:110-125 | at most two suggestions, capitalisation before punctuation; capitalisation exactly when the first character is not upper-case, with the first character upper-cased; punctuation exactly when the right-stripped text does not end in ".", "!" or "?", with that text plus "." |
| SentenceCorrection.Correct | backend/app.py:101-131 | `original` echoes the input; empty text has no suggestions and is its own correction; otherwise `corrected` is the last suggestion's text |
| SentenceCorrection.CorrectedDropsCapitalisation | backend/app.py:127-131 | for "hello" the backend suggests "Hello" and yet answers "hello.", which still needs a capital |
| SentenceCorrection.CorrectBoth | backend/app.py:113-131 | the corrected response keeps the original and the suggestions, and applies both fixes |
| SentenceCorrection.RStripCapitalize | backend/app.py:117-124 | capitalising does not change what right-stripping removes, so the two fixes commute |
| SentenceCorrection.CorrectedPassesBothChecks | backend/app.py:113-125 | for text starting with a letter, the corrected text draws no suggestion at all |
| QuickCheck.TrimOfTrimmed | frontend/src/components/QuickCheck.jsx:3-5 | trimmed text neither starts nor ends with whitespace |
| QuickCheck.NormalizeIdempotent | frontend/src/components/QuickCheck.jsx:3-5 | normalising twice is normalising once |
| QuickCheck.AcceptedAnswers | frontend/src/components/QuickCheck.jsx:27 | an answer array gives each element normalised, in order; a scalar answer gives one normalised answer; a missing answer gives just '' |
| QuickCheck.MissingAnswerAcceptsBlank | frontend/src/components/QuickCheck.jsx:3-84 | an item without an answer takes exactly a blank submission as correct, and its reveal reads "Answer: undefined" |
| QuickCheck.AcceptsIffListed | frontend/src/components/QuickCheck.jsx:27-36 | the normalised candidate is in the accepted list exactly when some listed answer normalises to it |
| QuickCheck.Submit | frontend/src/components/QuickCheck.jsx:29-38 | the status becomes correct exactly when some listed answer normalises like the candidate (the selected option for multiple choice, the typed text otherwise), else incorrect; nothing else changes |
| QuickCheck.SubmitIdempotent | frontend/src/components/QuickCheck.jsx:29-38 | submitting twice is submitting once |
| QuickCheck.Reveal | frontend/src/components/QuickCheck.jsx:40 | reveal sets status revealed from any state and changes nothing else |
| QuickCheck.TypeInput | frontend/src/components/QuickCheck.jsx:71-74 | typing replaces the input and resets the status to idle; option and hint are kept |
| QuickCheck.SelectOption | frontend/src/components/QuickCheck.jsx:53-56 | choosing an option replaces it and resets the status to idle; input and hint are kept |
| QuickCheck.ToggleHint | frontend/src/components/QuickCheck.jsx:96 | the hint flag flips and nothing else changes |
| QuickCheck.StatusLine | frontend/src/components/QuickCheck.jsx:79-110 | a status line is shown exactly when the status is not idle; after a reveal it reads "Answer: " with the raw answers joined by ", " |
| QuickCheck.Render | frontend/src/components/QuickCheck.jsx:7-18 | no items gives only the placeholder; otherwise one fresh card per item |
| DialogSimulation.Select | frontend/src/modules/DialogSimulation.jsx:13-18 | selecting a dialog resets the index to 0, practice off and the answer to '' |
| DialogSimulation.Next | frontend/src/modules/DialogSimulation.jsx:20-26 | Next moves to the next message before the last one and otherwise switches to practice, keeping the dialog and the answer |
| DialogSimulation.Previous | frontend/src/modules/DialogSimulation.jsx:28-32 | Previous steps back only from an index above 0 |
| DialogSimulation.Restart | frontend/src/modules/DialogSimulation.jsx:34-38 | restart returns to the first message with practice off and no answer, keeping the dialog |
| DialogSimulation.HandlersKeepValid | frontend/src/modules/DialogSimulation.jsx:13-38 | no handler moves the index past the last message or below 0 |
| DialogSimulation.VisibleIsPrefix | frontend/src/modules/DialogSimulation.jsx:67 | the visible messages are exactly the conversation up to and including the current one |
| DialogSimulation.NextRevealsOneMore | frontend/src/modules/DialogSimulation.jsx:20-26 | before the end, Next reveals exactly the next message |
| DialogSimulation.NextTimes | frontend/src/modules/DialogSimulation.jsx:20-26 | repeated Next presses keep the dialog and the answer, move the index forward by at most one per press, and keep a valid state valid |
| DialogSimulation.NextTimesLast | frontend/src/modules/DialogSimulation.jsx:20-26 | n + 1 presses are n presses followed by one more |
| DialogSimulation.PracticeAfterEveryMessage | frontend/src/modules/DialogSimulation.jsx:20-26 | from a fresh selection, practice appears exactly after as many presses as there are messages (at least one), and the index stops at the last message |
| DialogSimulation.CounterCountsVisible | frontend/src/modules/DialogSimulation.jsx:101 | for a dialog with messages, the counter reads "Message i of n", where i is the number of visible messages and n the conversation's length, so i never exceeds n |
| DialogSimulation.EmptyConversationCounter | frontend/src/modules/DialogSimulation.jsx:66-101 | a dialog without messages shows none, yet its counter reads "Message 1 of 0" |
| DialogSimulation.SpeakerClass | frontend/src/modules/DialogSimulation.jsx:70 | even positions are speaker-a and odd ones speaker-b |
| DialogSimulation.SpeakersAlternate | frontend/src/modules/DialogSimulation.jsx:70 | neighbouring messages never share a style |
| DialogSimulation.Render | frontend/src/modules/DialogSimulation.jsx:9-110 | the placeholder is shown exactly when the language or its `dialogs` list is missing, and an empty list shows no entries; a selected dialog shows either its visible messages with the counter or its practice questions, never both |
| PatternLearning.Select | frontend/src/modules/PatternLearning.jsx:12-16 | selecting a pattern clears all answers and hides the verdicts |
| PatternLearning.AnswerChange | frontend/src/modules/PatternLearning.jsx:18-20 | changing the answer at index i sets key i and leaves every other key and value as it was |
| PatternLearning.Check | frontend/src/modules/PatternLearning.jsx:22-24 | checking shows the verdicts and changes nothing else |
| PatternLearning.CheckIdempotent | frontend/src/modules/PatternLearning.jsx:22-24 | checking twice is checking once |
| PatternLearning.CorrectnessIgnoresCaseOnly | frontend/src/modules/PatternLearning.jsx:74-77 | a missing answer is never correct; the expected answer in capitals is correct; a leading space makes it wrong, since there is no trimming |
| PatternLearning.Verdict | frontend/src/modules/PatternLearning.jsx:73-78 | there is a verdict exactly when answers are shown, and it is "✓ Correct!" exactly when the answer is correct |
| PatternLearning.Render | frontend/src/modules/PatternLearning.jsx:8-81 | the placeholder is shown exactly when the language or its `patterns` list is missing, and an empty list shows no entries; a selected pattern shows one row per practice question with its typed answer, and a verdict on every row exactly when answers are shown, "✓ Correct!" exactly for a correct answer |
| ExerciseAccordion.Init | frontend/src/components/ExerciseAccordion.jsx:4-8 | an empty list renders nothing; otherwise the first section starts open |
| ExerciseAccordion.Click | frontend/src/components/ExerciseAccordion.jsx:19 | clicking the open section closes everything; clicking a closed one opens it |
| ExerciseAccordion.AtMostOneOpen | frontend/src/components/ExerciseAccordion.jsx:13 | with distinct ids, at most one section is open |
| ExerciseAccordion.InitOpensOnlyFirst | frontend/src/components/ExerciseAccordion.jsx:8-13 | initially exactly the first section is open |
| ExerciseAccordion.ClickOpensOnlyThat | frontend/src/components/ExerciseAccordion.jsx:13-19 | after a click, no section other than the clicked one is open |
| ExerciseAccordion.ClickTwice | frontend/src/components/ExerciseAccordion.jsx:19 | two clicks on the same section, starting all closed or with it open, restore the accordion |
| ExerciseAccordion.ClickIsAppendixToggle | frontend/src/components/ExerciseAccordion.jsx:19 | the accordion click is the appendix list toggle for a non-empty id |
| ConjugationTable.Render | frontend/src/components/ConjugationTable.jsx:6 | only the empty message is rendered, exactly when the value is not an array or the array is empty |
| ConjugationTable.ResetIndex | frontend/src/components/ConjugationTable.jsx:11-19 | a non-empty list always gets an index in range; an index in range is kept; one past the end becomes 0 |
| ConjugationTable.ResetIndexSettles | frontend/src/components/ConjugationTable.jsx:11-19 | after the reset, the effect has nothing more to do |
| ConjugationTable.IrregularIffMentioned | frontend/src/components/ConjugationTable.jsx:33 | an entry is irregular exactly when "irregular" occurs in its lower-cased note or tense |
| ConjugationTable.CapitalisedTenseIsIrregular | frontend/src/components/ConjugationTable.jsx:33 | the tense "Irregular" marks an entry, whatever its case |
| ConjugationTable.IrregularMap | frontend/src/components/ConjugationTable.jsx:31-37 | one flag per entry, true exactly when that entry is irregular |
| ConjugationTable.HighlightedIffIrregular | frontend/src/components/ConjugationTable.jsx:84-96 | the card is highlighted exactly when the toggle is on and the active entry is irregular; flipping the toggle changes the highlight exactly for an irregular entry; with the toggle off nothing is highlighted |
| ConjugationTable.OrElse | frontend/src/components/ConjugationTable.jsx:43 | the fallback is used exactly when the value is missing or empty |
| ConjugationTable.Rows | frontend/src/components/ConjugationTable.jsx:44-46 | one row per form, in order; none without forms |
| ConjugationTable.CopyText | frontend/src/components/ConjugationTable.jsx:39-48 | nothing is copied exactly when there is no active entry; otherwise the text starts with the header line |
| ConjugationTable.CopyTextLines | frontend/src/components/ConjugationTable.jsx:39-48 | the copied text has the header line, then one line per form; without forms, the header and one empty line |
| ConjugationTable.CopyTextDefaults | frontend/src/components/ConjugationTable.jsx:43 | a missing verb and an empty tense give "Verbo — Tiempo" |
| GrammarTopic.Position | frontend/src/pages/GrammarTopic.jsx:60-65 | every tab has a place in the order overview, conjugations, practice, tips |
| GrammarTopic.FirstEnabledFrom | frontend/src/pages/GrammarTopic.jsx:73 | the tab found is the first enabled one from that position on; none is found only when none is enabled |
| GrammarTopic.ActiveTabEffect | frontend/src/pages/GrammarTopic.jsx:68-77 | an enabled tab is kept; a disabled one becomes the first enabled tab in order; with none enabled it is kept |
| GrammarTopic.ActiveTabEffectSettles | frontend/src/pages/GrammarTopic.jsx:68-77 | running the fallback effect again changes nothing |
| GrammarTopic.TopicFallsBackToOverview | frontend/src/pages/GrammarTopic.jsx:61 | with a topic, the active tab ends up enabled, and a disabled one falls back to the overview |
| GrammarTopic.ClickTab | frontend/src/pages/GrammarTopic.jsx:270 | a click selects the tab exactly when it is enabled; clicking a disabled tab leaves the active tab unchanged |
| GrammarTopic.ClickKeepsEnabled | frontend/src/pages/GrammarTopic.jsx:270 | clicks keep the active tab enabled, so the fallback effect never fires after one |
| GrammarTopic.FindTopic | frontend/src/pages/GrammarTopic.jsx:24 | the topic found is the first with the id; none is found only when no topic has it |
| GrammarTopic.GrammarPath | frontend/src/pages/GrammarTopic.jsx:19 | the topic page fetches the same grammar file as the appendix bundle, from the site root |
| GrammarTopic.LoadTopic | frontend/src/pages/GrammarTopic.jsx:15-37 | loading shows "Loading topic..."; a failed request changes only the status; a missing topic clears it with "Topic not found in this level."; a found topic is the first with the id, shown on the overview tab with "Ready" |
| GrammarTopic.LoadedTopicHasEnabledTab | frontend/src/pages/GrammarTopic.jsx:30-32 | after loading nothing is busy, and a loaded topic's active tab is enabled and left alone by the fallback |
| GrammarTopic.ShowTranslationCases | frontend/src/pages/GrammarTopic.jsx:42-45 | no translation for the language being learnt or without a topic; an overlay object for another, non-empty language is shown |
| GrammarTopic.PracticeSections | frontend/src/pages/GrammarTopic.jsx:79-117 | no sections without a topic; the prompt deck is included exactly when there are prompts, and the quick checks exactly when there are interactions; the deck comes first |
| GrammarTopic.PracticeTabIffSections | frontend/src/pages/GrammarTopic.jsx:53-66 | the practice tab is enabled exactly when the accordion has sections |
| GrammarTopic.PracticeAccordionOpensFirst | frontend/src/pages/GrammarTopic.jsx:79-117 | the practice accordion opens on exactly one section: the prompt deck if there are prompts, else the quick checks |

## Left out

- Network, files and servers. Every `fetch`/`axios` request is an oracle
  parameter, and the HTTP status line is folded into `Err`. Flask routing
  and JSON responses are not modelled.
- JSON decoding. Manifests, grammar files and topics arrive as typed
  records, and bundle parts as the abstract `Json` value. A value whose
  shape differs from the record, where the source would throw a TypeError,
  is not modelled. For bundle parts the throws of the static page's render
  functions are modelled (`MainPage.RenderThrows`).
- The ML endpoints of the backend (`tokenize`, `embeddings`, `attention`)
  and their front-end module. They wrap libraries that are not part of this
  model, and their display uses floating point.
- DOM and JSX rendering, `innerHTML`, option elements, smooth scrolling, the
  clipboard API and the copy-feedback timer. `ConjugationTable.CopyText` is
  the text handed to the clipboard. Whether the write succeeds is not
  modelled.
- Interleaving of overlapping asynchronous loads. Each load is a pending
  state followed by a settled state, with nothing in between.
- `initializeLanguageLayer` and the static page's manifest bootstrap, beyond
  the rules they call (initial language, picker, language load).
- The display-only widgets, the static pages and `VocabularyTopic.jsx`. Its
  find-by-id lookup is the one `GrammarTopic.FindTopic` models.
- Unicode. Case mapping is ASCII only. JavaScript `trim` removes the ASCII
  whitespace set, and Python `rstrip` additionally removes U+001C–U+001F.
  Non-ASCII spaces and letters are not modelled.
- Manifest.ResolveVariantsAgree: relates the two variants only when no
  listed code is requested. The static page has no request to honour.
- DialogSimulation.Next: requires a selected dialog. The source only offers
  the button once one is selected.
- DialogSimulation.PracticeAfterEveryMessage: covers only presses from a
  fresh selection, not from an arbitrary index.
- GrammarTopic.ActiveTabEffect: the active tab is one of the four tab ids,
  so the source's "tab not found" branch cannot arise.
- ExerciseAccordion.Init: section ids are strings. The case of sections
  without an id, where every such section would compare equal to an
  undefined open id, is not modelled.
- SentenceCorrection.CorrectedPassesBothChecks: requires the text to start
  with an ASCII letter. For text starting with a digit or a symbol, the
  capitalisation check fires again whatever is done.
- The `language` parameter of the backend `correct` rule, which the source
  reads and never uses.
- Manifest.LanguagePicker: `languages` is either absent or an array. A
  `languages` that is null or not an array makes `languages.forEach` throw
  in frontend/scripts/main.js:97, and the page then shows "Unable to load
  language data. Please refresh." instead of a picker. That manifest cannot
  be expressed in the model.
- Manifest.ChooseLevel: `levels` is either absent, null or an array. A
  `levels` that is present but not an array makes `meta?.levels?.some(...)`
  throw in frontend/src/pages/Appendix.jsx:75, where the model chooses ''
  and `AppendixPage.LevelEffect` leaves the state unchanged. The static page
  (frontend/scripts/main.js:275) treats such a value as no levels, as the
  model does.
- Manifest.LanguageOption: `nativeName` is a string or absent, and an absent
  one prints "undefined". A JSON `nativeName: null` would print "null", and
  that case is not modelled.
- AppendixPage.ManifestLoaded: a truthy `languages` that is not an array
  makes `.some` or `.find` throw in frontend/src/pages/Appendix.jsx:451-457
  whenever either is reached. The page then shows the manifest error after
  storing the manifest. The
  model's manifest cannot express that value, so "Manifest ready." is
  stated for every manifest it can express.
- MainPage.LoadLanguage: the name in "NAME data ready." is read as a string.
  A non-string name prints as JavaScript would print it, and that case is
  not modelled.
- MainPage.LabelParts: `name`, `nativeName` and `level` are read as
  strings. Other JSON values in these fields are treated as absent.
- AppendixPage.DescribeCollection: `length` is that of JSON strings and
  arrays. An object with its own `length` field reads as having no length.

## Findings

| source | as written | input that shows it | evidently intended | confidence | as-written member | corrected member |
|---|---|---|---|---|---|---|
| backend/app.py:127-131 | `corrected` is the text of the last suggestion only, so when both rules fire the capitalisation fix is lost | text "hello": suggestions "Hello" and "hello.", corrected "hello." | corrected text with both fixes applied ("Hello."), which draws no further suggestion | medium, not executed | SentenceCorrection.CorrectedDropsCapitalisation | SentenceCorrection.CorrectedPassesBothChecks |

=== FILE: appendix_page.dfy ===
/** The React appendix page: manifest loading and the initial language, the
    level choice kept in sync with the URL query, the four panels' statuses
    while a bundle loads, and the single-open grammar and vocabulary lists. */
module AppendixPage {
  import opened Wrappers
  import opened Json
  import opened Panels
  import opened BundleLoader
  import SearchParams
  import Manifest
  import Text

  datatype AppendixState = AppendixState(
    manifest: Option<Manifest.Manifest>,
    manifestStatus: PanelStatus,
    selectedLanguage: string,
    selectedLevel: string,
    panels: PanelSet,
    bundle: Option<Bundle>,
    expandedGrammar: Option<string>,
    expandedVocabulary: Option<string>,
    cache: map<string, Bundle>,
    params: SearchParams.Params)

  /** The state on first render, with the query string the page was opened with. */
  function InitialState(params: SearchParams.Params): AppendixState {
    AppendixState(None, PanelStatus("Loading language manifest...", true, false), "", "",
                  Uniform(Plain("Select a language and level.")), None, None, None, map[], params)
  }

  // ---- panel statuses ------------------------------------------------------

  function DefaultEmptyMessage(noun: string): string {
    "No " + noun + "s yet."
  }

  /** The message that reports a non-empty collection. */
  function LoadedMessage(count: string, noun: string, singular: bool): string {
    "Loaded " + count + " " + (if singular then noun else noun + "s") + "."
  }

  /** `describeCollection(collection, label, emptyMessage)`: a missing, falsy
      or zero-length collection gives the empty message; otherwise the count
      with the label, singular exactly when the count is 1. Never busy, never
      an error. */
  function DescribeCollection(collection: Option<Json>, noun: string, emptyMessage: string): (s: PanelStatus)
    ensures !s.busy && !s.error
    ensures collection.None? || !Truthy(collection.value) || Length(collection.value) == Some(0) ==>
              s.message == emptyMessage
    ensures collection.Some? && Truthy(collection.value) && Length(collection.value).Some?
            && Length(collection.value).value > 0 ==>
              var n := Length(collection.value).value;
              s.message == LoadedMessage(Text.NatToString(n), noun, n == 1)
    ensures collection.Some? && Truthy(collection.value) && Length(collection.value).None? ==>
              s.message == LoadedMessage("undefined", noun, false)
  {
    if collection.None? || !Truthy(collection.value) || Length(collection.value) == Some(0) then
      Plain(emptyMessage)
    else match Length(collection.value)
      case Some(n) => Plain(LoadedMessage(Text.NatToString(n), noun, n == 1))
      case None => Plain(LoadedMessage("undefined", noun, false))
  }

  /** The count in a "Loaded n ..." message reads back as the collection's size. */
  lemma {:induction false} DescribedCountReadsBack(items: seq<Json>, noun: string, emptyMessage: string)
    requires |items| > 0
    ensures var msg := DescribeCollection(Some(JArr(items)), noun, emptyMessage).message;
            var k := |Text.NatToString(|items|)|;
            && |msg| > 7 + k
            && msg[..7] == "Loaded "
            && (forall i :: 7 <= i < 7 + k ==> Text.IsDigit(msg[i]))
            && msg[7 + k] == ' '
            && Text.ParseNat(msg[7..7 + k]) == |items|
  {
    var digits := Text.NatToString(|items|);
    var msg := DescribeCollection(Some(JArr(items)), noun, emptyMessage).message;
    assert msg == "Loaded " + digits + " " + (if |items| == 1 then noun else noun + "s") + ".";
    assert msg[7..7 + |digits|] == digits;
    Text.ParseNatToString(|items|);
  }

  /** `announcePanelCounts(data)`. */
  function AnnouncedPanels(b: Bundle): (p: PanelSet)
    ensures p.NoneBusy() && p.NoneError()
  {
    PanelSet(
      DescribeCollection(Field(b.grammar, "topics"), "grammar topic", DefaultEmptyMessage("grammar topic")),
      DescribeCollection(Field(b.vocabulary, "sets"), "vocabulary set", DefaultEmptyMessage("vocabulary set")),
      DescribeCollection(Field(b.conversation, "scenes"), "scene", DefaultEmptyMessage("scene")),
      DescribeCollection(Field(b.patterns, "patterns"), "pattern", "No patterns provided for this level."))
  }

  function LoadingPanels(): (p: PanelSet)
    ensures p.AllBusy() && p.NoneError()
  {
    PanelSet(
      PanelStatus("Loading Grammar content...", true, false),
      PanelStatus("Loading Vocabulary content...", true, false),
      PanelStatus("Loading Conversation content...", true, false),
      PanelStatus("Loading Patterns content...", true, false))
  }

  const LoadFailure := PanelStatus("Unable to load appendix data. Please try again.", false, true)

  // ---- bundle loading -------------------------------------------------------

  datatype Step = Step(pending: AppendixState, settled: AppendixState, requests: seq<string>)

  /** `loadAppendixBundle(langCode, level)`: all four panels busy and the
      bundle cleared while waiting; then the counts of the (cached or fresh)
      bundle, or the same error on every panel. */
  function LoadAppendixBundle(st: AppendixState, fetch: Fetcher, lang: string, level: string): (s: Step)
    ensures s.pending == st.(panels := LoadingPanels(), bundle := None)
    ensures s.settled.panels.NoneBusy()
    ensures CacheKey(lang, level) in st.cache ==>
              s.requests == [] && s.settled.bundle == Some(st.cache[CacheKey(lang, level)])
    ensures var l := GetAppendixData(st.cache, fetch, lang, level);
            && s.settled.cache == l.cache
            && s.requests == l.requests
            && (l.result.Err? ==> s.settled.panels == Uniform(LoadFailure) && s.settled.bundle.None?)
            && (l.result.Ok? ==> s.settled.bundle == Some(l.result.value)
                                 && s.settled.panels == AnnouncedPanels(l.result.value))
    ensures s.settled == s.pending.(panels := s.settled.panels, bundle := s.settled.bundle, cache := s.settled.cache)
  {
    var pending := st.(panels := LoadingPanels(), bundle := None);
    var l := GetAppendixData(st.cache, fetch, lang, level);
    match l.result
    case Ok(b) => Step(pending, pending.(panels := AnnouncedPanels(b), bundle := Some(b), cache := l.cache), l.requests)
    case Err(_) => Step(pending, pending.(panels := Uniform(LoadFailure), cache := l.cache), l.requests)
  }

  /** The effect on a language or level change: load when both are chosen,
      and collapse both lists either way. */
  function SelectionEffect(st: AppendixState, fetch: Fetcher): (s: Step)
    ensures s.settled.expandedGrammar.None? && s.settled.expandedVocabulary.None?
    ensures st.selectedLanguage == "" || st.selectedLevel == "" ==>
              s.requests == [] && s.settled == s.pending == st.(expandedGrammar := None, expandedVocabulary := None)
    ensures st.selectedLanguage != "" && st.selectedLevel != "" ==>
              && s.pending.panels.AllBusy() && s.settled.panels.NoneBusy()
              && s == LoadAppendixBundle(st.(expandedGrammar := None, expandedVocabulary := None),
                                         fetch, st.selectedLanguage, st.selectedLevel)
  {
    var collapsed := st.(expandedGrammar := None, expandedVocabulary := None);
    if st.selectedLanguage != "" && st.selectedLevel != "" then
      LoadAppendixBundle(collapsed, fetch, st.selectedLanguage, st.selectedLevel)
    else Step(collapsed, collapsed, [])
  }

  // ---- expandable lists -----------------------------------------------------

  /** `handleGrammarToggle` / `handleVocabularyToggle`: a falsy id is ignored;
      the expanded id collapses; any other id becomes the only expanded one. */
  function Toggle(expanded: Option<string>, id: string): (r: Option<string>)
    ensures id == "" ==> r == expanded
    ensures id != "" ==> (r == Some(id) <==> expanded != Some(id))
    ensures id != "" ==> r.None? || r == Some(id)
  {
    if id == "" then expanded
    else if expanded == Some(id) then None
    else Some(id)
  }

  /** Toggling the same item twice from a collapsed list, or from that item
      open, restores the list. */
  lemma ToggleTwice(expanded: Option<string>, id: string)
    requires expanded.None? || expanded == Some(id)
    ensures Toggle(Toggle(expanded, id), id) == expanded
  {
  }

  /** The key of a listed topic or set: its id, else its title, else
      "<prefix>-<index>"; never empty, so toggling a rendered item always acts. */
  function ItemKey(id: Option<string>, title: Option<string>, prefix: string, index: nat): (k: string)
    ensures k != ""
    ensures Manifest.Truthy(id) ==> k == id.value
    ensures !Manifest.Truthy(id) && Manifest.Truthy(title) ==> k == title.value
  {
    if Manifest.Truthy(id) then id.value
    else if Manifest.Truthy(title) then title.value
    else prefix + "-" + Text.NatToString(index)
  }

  /** Items with neither id nor title at different positions get different
      keys, so expanding one never expands another. */
  lemma PositionalKeysDistinct(prefix: string, i: nat, j: nat)
    requires i != j
    ensures ItemKey(None, None, prefix, i) != ItemKey(None, None, prefix, j)
  {
    var a := Text.NatToString(i);
    var b := Text.NatToString(j);
    if prefix + "-" + a == prefix + "-" + b {
      assert (prefix + "-" + a)[|prefix| + 1..] == a;
      assert (prefix + "-" + b)[|prefix| + 1..] == b;
      Text.NatToStringInjective(i, j);
    }
  }

  function GrammarToggle(st: AppendixState, id: string): (r: AppendixState)
    ensures r.expandedGrammar == Toggle(st.expandedGrammar, id)
    ensures r.(expandedGrammar := st.expandedGrammar) == st
  {
    st.(expandedGrammar := Toggle(st.expandedGrammar, id))
  }

  function VocabularyToggle(st: AppendixState, id: string): (r: AppendixState)
    ensures r.expandedVocabulary == Toggle(st.expandedVocabulary, id)
    ensures r.(expandedVocabulary := st.expandedVocabulary) == st
  {
    st.(expandedVocabulary := Toggle(st.expandedVocabulary, id))
  }

  // ---- selection and the query string ----------------------------------------

  /** `handleLanguageChange(code)`: the level is cleared and the `level`
      parameter removed; `language` is set (or removed when empty); every
      other parameter keeps its pairs. */
  function LanguageChange(st: AppendixState, code: string): (r: AppendixState)
    ensures r == st.(selectedLanguage := code, selectedLevel := "", params := r.params)
    ensures SearchParams.Get(r.params, "level") == None
    ensures SearchParams.Get(r.params, "language") == SearchParams.Effective(Some(code))
    ensures SearchParams.Omit(r.params, {"language", "level"}) == SearchParams.Omit(st.params, {"language", "level"})
  {
    var params := SearchParams.Update(st.params, [("language", Some(code)), ("level", None)]);
    SearchParams.UpdateTwo(st.params, "language", Some(code), "level", None);
    st.(selectedLanguage := code, selectedLevel := "", params := params)
  }

  /** `handleLevelChange(level)`: the level and both parameters follow the choice. */
  function LevelChange(st: AppendixState, level: string): (r: AppendixState)
    ensures r == st.(selectedLevel := level, params := r.params)
    ensures SearchParams.Get(r.params, "level") == SearchParams.Effective(Some(level))
    ensures SearchParams.Get(r.params, "language") == SearchParams.Effective(Some(st.selectedLanguage))
    ensures SearchParams.Omit(r.params, {"language", "level"}) == SearchParams.Omit(st.params, {"language", "level"})
  {
    var params := SearchParams.Update(st.params, [("language", Some(st.selectedLanguage)), ("level", Some(level))]);
    SearchParams.UpdateTwo(st.params, "language", Some(st.selectedLanguage), "level", Some(level));
    st.(selectedLevel := level, params := params)
  }

  /** The manifest entry of the selected language. */
  function SelectedMeta(m: Manifest.Manifest, code: string): Option<Manifest.LanguageEntry> {
    var langs := m.languages.GetOr([]);
    match Manifest.FindLanguage(langs, code)
    case None => None
    case Some(i) => Some(langs[i])
  }

  /** The level effect: without a manifest or a language the level is
      cleared; otherwise the level becomes the requested level if the
      language offers it, else its first level, and the query string is
      brought in line. When no level can be chosen nothing changes. */
  function LevelEffect(st: AppendixState): (r: AppendixState)
    ensures st.manifest.None? || st.selectedLanguage == "" ==> r == st.(selectedLevel := "")
    ensures st.manifest.Some? && st.selectedLanguage != "" ==>
              var next := Manifest.ChooseLevel(SelectedMeta(st.manifest.value, st.selectedLanguage),
                                               SearchParams.Get(st.params, "level"));
              && (next == "" ==> r == st)
              && (next != "" ==> && r == st.(selectedLevel := next, params := r.params)
                                 && SearchParams.Get(r.params, "level") == Some(next)
                                 && SearchParams.Omit(r.params, {"language", "level"})
                                    == SearchParams.Omit(st.params, {"language", "level"})
                                 && (SearchParams.Get(st.params, "level") == Some(next) ==> r.params == st.params)
                                 && (SearchParams.Get(st.params, "level") != Some(next) ==>
                                       SearchParams.Get(r.params, "language") == Some(st.selectedLanguage)))
  {
    if st.manifest.None? || st.selectedLanguage == "" then st.(selectedLevel := "")
    else
      var requested := SearchParams.Get(st.params, "level");
      var next := Manifest.ChooseLevel(SelectedMeta(st.manifest.value, st.selectedLanguage), requested);
      if next == "" then st
      else if requested == Some(next) then st.(selectedLevel := next)
      else
        SearchParams.UpdateTwo(st.params, "language", Some(st.selectedLanguage), "level", Some(next));
        st.(selectedLevel := next,
            params := SearchParams.Update(st.params, [("language", Some(st.selectedLanguage)), ("level", Some(next))]))
  }

  /** The level effect reaches a fixed point at once: running it on its own
      result changes nothing, so it cannot keep re-triggering itself. */
  lemma LevelEffectSettles(st: AppendixState)
    ensures LevelEffect(LevelEffect(st)) == LevelEffect(st)
  {
    if st.manifest.Some? && st.selectedLanguage != "" {
      var meta := SelectedMeta(st.manifest.value, st.selectedLanguage);
      var next := Manifest.ChooseLevel(meta, SearchParams.Get(st.params, "level"));
      if next != "" {
        Manifest.ChooseLevelStable(meta, SearchParams.Get(st.params, "level"));
      }
    }
  }

  /** The manifest load on mount: on success the manifest is kept and the
      initial language (requested via `?language=` if listed) is selected and
      written to the query string; on failure only the status changes. */
  function ManifestLoaded(st: AppendixState, response: Result<Option<Manifest.Manifest>, FetchError>): (r: AppendixState)
    ensures response.Err? ==>
              r == st.(manifestStatus := PanelStatus("Unable to load language manifest. Refresh to try again.", false, true))
    ensures response.Ok? ==>
              var code := Manifest.ResolveInitialLanguageForAppendix(response.value, SearchParams.Get(st.params, "language"));
              && r.manifest == response.value
              && r.manifestStatus == Plain("Manifest ready.")
              && r == st.(manifest := response.value, manifestStatus := Plain("Manifest ready."),
                          selectedLanguage := r.selectedLanguage, params := r.params)
              && (code != "" ==> r.selectedLanguage == code && SearchParams.Get(r.params, "language") == Some(code))
              && (code == "" ==> r.selectedLanguage == st.selectedLanguage && r.params == st.params)
              && SearchParams.Omit(r.params, {"language"}) == SearchParams.Omit(st.params, {"language"})
  {
    match response
    case Err(_) =>
      st.(manifestStatus := PanelStatus("Unable to load language manifest. Refresh to try again.", false, true))
    case Ok(m) =>
      var code := Manifest.ResolveInitialLanguageForAppendix(m, SearchParams.Get(st.params, "language"));
      var loaded := st.(manifest := m, manifestStatus := Plain("Manifest ready."));
      if code == "" then loaded
      else
        SearchParams.UpdateOne(st.params, "language", Some(code));
        loaded.(selectedLanguage := code, params := SearchParams.Update(st.params, [("language", Some(code))]))
  }

  /** On mount, a language selected by the manifest load is one the manifest
      lists or its default language, and the query string then names it;
      when none resolves, the query string is left as it was. */
  lemma ManifestLoadedOnMount(params: SearchParams.Params, m: Option<Manifest.Manifest>)
    ensures var r := ManifestLoaded(InitialState(params), Ok(m));
            && (r.selectedLanguage != "" ==>
                  && m.Some? && m.value.languages.Some?
                  && (Manifest.Lists(m.value.languages.value, r.selectedLanguage)
                      || m.value.defaultLanguage == Some(r.selectedLanguage))
                  && SearchParams.Get(r.params, "language") == Some(r.selectedLanguage))
            && (r.selectedLanguage == "" ==> r.params == params)
  {
  }
}

=== FILE: bundle_loader.dfy ===
/** The appendix content bundle: four JSON documents per (language, level),
    fetched together and memoised for the page session under the key
    `lang-level`. Both the static page script and the React appendix page
    load bundles this way. The network is an oracle from path to parsed JSON
    or failure; each load reports the paths it requested. */
module BundleLoader {
  import opened Wrappers
  import opened Json

  /** A request that failed: network error, non-OK status, or unparsable body. */
  datatype FetchError = RequestFailed

  /** `fetchJSON(url)`: the parsed body, or the reason the promise rejects. */
  type Fetcher = string -> Result<Json, FetchError>

  /** A loaded bundle; `patterns` is `JNull` when its file could not be loaded. */
  datatype Bundle = Bundle(grammar: Json, vocabulary: Json, conversation: Json, patterns: Json)

  function CacheKey(lang: string, level: string): string {
    lang + "-" + level
  }

  function ResourcePath(lang: string, level: string, name: string): string {
    "data/languages/" + lang + "/levels/" + level + "/" + name + ".json"
  }

  /** The four paths of a bundle, in the order the loaders request them. */
  function BundlePaths(lang: string, level: string): (r: seq<string>)
    ensures |r| == 4
  {
    [ ResourcePath(lang, level, "grammar"),
      ResourcePath(lang, level, "vocabulary"),
      ResourcePath(lang, level, "conversation"),
      ResourcePath(lang, level, "patterns") ]
  }

  /** `fetchOptionalJSON(url)`: never fails; a failed request reads as null. */
  function FetchOptional(fetch: Fetcher, url: string): (j: Json)
    ensures fetch(url).Err? ==> j == JNull
    ensures fetch(url).Ok? ==> j == fetch(url).value
  {
    match fetch(url)
    case Ok(v) => v
    case Err(_) => JNull
  }

  /** The four requests of `Promise.all`: the bundle exists exactly when the
      three required documents load; the patterns document cannot fail it. */
  function FetchBundle(fetch: Fetcher, lang: string, level: string): (r: Result<Bundle, FetchError>)
    ensures var p := BundlePaths(lang, level);
            r.Ok? <==> fetch(p[0]).Ok? && fetch(p[1]).Ok? && fetch(p[2]).Ok?
    ensures var p := BundlePaths(lang, level);
            r.Ok? ==> r.value == Bundle(fetch(p[0]).value, fetch(p[1]).value, fetch(p[2]).value,
                                        FetchOptional(fetch, p[3]))
  {
    var p := BundlePaths(lang, level);
    match (fetch(p[0]), fetch(p[1]), fetch(p[2]))
    case (Ok(g), Ok(v), Ok(c)) => Ok(Bundle(g, v, c, FetchOptional(fetch, p[3])))
    case _ => Err(RequestFailed)
  }

  /** The outcome of one bundle load: the bundle or failure, the cache after
      it, and the paths requested on the way. */
  datatype Load = Load(result: Result<Bundle, FetchError>, cache: map<string, Bundle>, requests: seq<string>)

  /** `getAppendixData`: a cached bundle is returned with no request; otherwise
      all four paths are requested and the bundle is cached only when it loads. */
  function GetAppendixData(cache: map<string, Bundle>, fetch: Fetcher, lang: string, level: string): (l: Load)
    ensures CacheKey(lang, level) in cache ==>
              l == Load(Ok(cache[CacheKey(lang, level)]), cache, [])
    ensures CacheKey(lang, level) !in cache ==>
              l.requests == BundlePaths(lang, level) && l.result == FetchBundle(fetch, lang, level)
    ensures l.result.Ok? ==> l.cache == cache[CacheKey(lang, level) := l.result.value]
    ensures l.result.Err? ==> l.cache == cache
  {
    var key := CacheKey(lang, level);
    if key in cache then Load(Ok(cache[key]), cache, [])
    else match FetchBundle(fetch, lang, level)
      case Ok(b) => Load(Ok(b), cache[key := b], BundlePaths(lang, level))
      case Err(e) => Load(Err(e), cache, BundlePaths(lang, level))
  }

  /** After a load succeeds, loading the same pair again requests nothing and
      returns the same bundle, whatever the network now does; after a load
      fails, nothing was cached and the next load requests all four paths again. */
  lemma LoadIsMemoised(cache: map<string, Bundle>, fetch: Fetcher, later: Fetcher, lang: string, level: string)
    ensures var first := GetAppendixData(cache, fetch, lang, level);
            first.result.Ok? ==> GetAppendixData(first.cache, later, lang, level) == Load(first.result, first.cache, [])
    ensures var first := GetAppendixData(cache, fetch, lang, level);
            first.result.Err? ==> GetAppendixData(first.cache, later, lang, level).requests == BundlePaths(lang, level)
  {
  }

  /** Position of the first '-' in `s` (|s| when there is none). */
  function FirstDash(s: string): nat
    decreases |s|
  {
    if |s| == 0 || s[0] == '-' then 0 else 1 + FirstDash(s[1..])
  }

  /** Position just after the last '-' in `s` (0 when there is none). */
  function AfterLastDash(s: string): nat
    decreases |s|
  {
    if |s| == 0 || s[|s| - 1] == '-' then |s| else AfterLastDash(s[..|s| - 1])
  }

  lemma {:induction false} FirstDashOfKey(x: string, rest: string)
    requires '-' !in x
    ensures FirstDash(x + "-" + rest) == |x|
    decreases |x|
  {
    if |x| > 0 {
      assert (x + "-" + rest)[1..] == x[1..] + "-" + rest;
      assert x[0] in x;
      FirstDashOfKey(x[1..], rest);
    }
  }

  lemma {:induction false} AfterLastDashOfKey(rest: string, y: string)
    requires '-' !in y
    ensures AfterLastDash(rest + "-" + y) == |rest| + 1
    decreases |y|
  {
    var s := rest + "-" + y;
    if |y| > 0 {
      assert s[..|s| - 1] == rest + "-" + y[..|y| - 1];
      assert y[|y| - 1] in y;
      assert forall c :: c in y[..|y| - 1] ==> c in y;
      AfterLastDashOfKey(rest, y[..|y| - 1]);
    } else {
      assert s[|s| - 1] == '-';
    }
  }

  /** The key identifies the pair when no language code contains '-'. */
  lemma CacheKeyInjectiveOnCodes(a: string, b: string, c: string, d: string)
    requires CacheKey(a, b) == CacheKey(c, d)
    requires '-' !in a && '-' !in c
    ensures a == c && b == d
  {
    var k := CacheKey(a, b);
    FirstDashOfKey(a, b);
    FirstDashOfKey(c, d);
    assert a == k[..|a|] && c == k[..|c|];
    assert b == k[|a| + 1..] && d == k[|c| + 1..];
  }

  /** The key identifies the pair when no level id contains '-'. */
  lemma CacheKeyInjectiveOnLevels(a: string, b: string, c: string, d: string)
    requires CacheKey(a, b) == CacheKey(c, d)
    requires '-' !in b && '-' !in d
    ensures a == c && b == d
  {
    var k := CacheKey(a, b);
    AfterLastDashOfKey(a, b);
    AfterLastDashOfKey(c, d);
    assert a == k[..|a|] && c == k[..|c|];
    assert b == k[|a| + 1..] && d == k[|c| + 1..];
  }

  /** With '-' in both a code and a level, two different pairs share a key:
      after ("a-b", "c") is loaded, loading ("a", "b-c") requests nothing and
      returns the other pair's bundle, not its own. */
  lemma CacheKeyCollision()
    ensures var fetch: Fetcher := (p: string) => Ok(JStr(p));
            var first := GetAppendixData(map[], fetch, "a-b", "c");
            var second := GetAppendixData(first.cache, fetch, "a", "b-c");
            && CacheKey("a-b", "c") == CacheKey("a", "b-c")
            && second.requests == []
            && second.result != FetchBundle(fetch, "a", "b-c")
  {
    var fetch: Fetcher := (p: string) => Ok(JStr(p));
    var p1 := ResourcePath("a-b", "c", "grammar");
    var p2 := ResourcePath("a", "b-c", "grammar");
    assert CacheKey("a-b", "c") == CacheKey("a", "b-c");
    assert p1[16] != p2[16];
    assert FetchBundle(fetch, "a-b", "c").value.grammar == JStr(p1);
    assert FetchBundle(fetch, "a", "b-c").value.grammar == JStr(p2);
  }

  /** Every cached bundle of a dash-free language code is the bundle a fresh
      load of that pair would produce. */
  ghost predicate Coherent(cache: map<string, Bundle>, fetch: Fetcher) {
    forall lang, level ::
      '-' !in lang && CacheKey(lang, level) in cache ==>
        FetchBundle(fetch, lang, level) == Ok(cache[CacheKey(lang, level)])
  }

  /** Against a network that answers each path the same way every time,
      loading a dash-free code keeps the cache coherent, and whatever bundle it
      returns (cached or fresh) is the one a fresh load would return. */
  lemma LoadKeepsCoherence(cache: map<string, Bundle>, fetch: Fetcher, lang: string, level: string)
    requires Coherent(cache, fetch)
    requires '-' !in lang
    ensures var l := GetAppendixData(cache, fetch, lang, level);
            Coherent(l.cache, fetch) && (l.result.Ok? ==> l.result == FetchBundle(fetch, lang, level))
  {
    var l := GetAppendixData(cache, fetch, lang, level);
    var key := CacheKey(lang, level);
    forall lang', level' | '-' !in lang' && CacheKey(lang', level') in l.cache
      ensures FetchBundle(fetch, lang', level') == Ok(l.cache[CacheKey(lang', level')])
    {
      if CacheKey(lang', level') == key && key !in cache {
        CacheKeyInjectiveOnCodes(lang', level', lang, level);
      }
    }
  }
}

=== FILE: conjugation_table.dfy ===
/** The conjugation table shown on a grammar topic: one chip per verb, an
    active entry, irregular-verb detection and highlighting, and the text
    put on the clipboard by "Copy table". */
module ConjugationTable {
  import opened Wrappers
  import Text

  datatype Form = Form(person: Option<string>, form: Option<string>)

  datatype Conjugation = Conjugation(
    verb: Option<string>,
    tense: Option<string>,
    note: Option<string>,
    forms: Option<seq<Form>>)

  const EmptyMessage := "No conjugations available for this topic yet."

  /** `Array.isArray(conjugations) ? conjugations : []`: `None` stands for
      anything that is not an array. */
  function Safe(conjugations: Option<seq<Conjugation>>): seq<Conjugation> {
    conjugations.GetOr([])
  }

  /** The table renders only the empty message exactly when there is no
      entry, a non-array value included. */
  function Render(conjugations: Option<seq<Conjugation>>): (r: Option<string>)
    ensures r.Some? <==> conjugations.None? || conjugations.value == []
    ensures r.Some? ==> r.value == EmptyMessage
  {
    if |Safe(conjugations)| == 0 then Some(EmptyMessage) else None
  }

  /** The effect that keeps the active index usable: back to 0 when the
      list is empty or the index is past the last entry. */
  function ResetIndex(count: nat, active: nat): (r: nat)
    ensures count > 0 ==> r < count
    ensures active < count ==> r == active
    ensures active >= count ==> r == 0
  {
    if count == 0 then 0
    else if active > count - 1 then 0
    else active
  }

  /** After the reset the effect has nothing more to do. */
  lemma ResetIndexSettles(count: nat, active: nat)
    ensures ResetIndex(count, ResetIndex(count, active)) == ResetIndex(count, active)
  {
  }

  /** `entry?.field?.toLowerCase().includes('irregular')`. */
  predicate Mentions(field: Option<string>, word: string) {
    field.Some? && Text.Contains(Text.Lower(field.value), word)
  }

  /** An entry is irregular when its note or its tense mentions it. */
  predicate IsIrregular(c: Conjugation) {
    Mentions(c.note, "irregular") || Mentions(c.tense, "irregular")
  }

  /** The word is found in either field at some position, whatever its case. */
  lemma IrregularIffMentioned(c: Conjugation)
    ensures IsIrregular(c) <==>
      (c.note.Some? && exists i :: 0 <= i <= |c.note.value| && "irregular" <= Text.Lower(c.note.value)[i..]) ||
      (c.tense.Some? && exists i :: 0 <= i <= |c.tense.value| && "irregular" <= Text.Lower(c.tense.value)[i..])
  {
    if c.note.Some? {
      Text.ContainsIffOccurs(Text.Lower(c.note.value), "irregular");
    }
    if c.tense.Some? {
      Text.ContainsIffOccurs(Text.Lower(c.tense.value), "irregular");
    }
  }

  /** A tense written "Irregular", capital letter included, marks the entry. */
  lemma CapitalisedTenseIsIrregular(verb: Option<string>, forms: Option<seq<Form>>)
    ensures IsIrregular(Conjugation(verb, Some("Irregular"), None, forms))
  {
    var lowered := Text.Lower("Irregular");
    assert lowered[0] == Text.ToLower('I');
    assert lowered[1..] == "rregular";
    assert lowered == "irregular";
  }

  /** `irregularMap`: one flag per entry, by position. */
  function IrregularMap(list: seq<Conjugation>): (r: seq<bool>)
    ensures |r| == |list|
    ensures forall i :: 0 <= i < |list| ==> (r[i] <==> IsIrregular(list[i]))
  {
    seq(|list|, i requires 0 <= i < |list| => IsIrregular(list[i]))
  }

  /** The card is highlighted when the toggle is on and the map flags the
      active entry (a missing entry is never flagged). */
  predicate Highlighted(highlight: bool, list: seq<Conjugation>, active: nat) {
    var flags := IrregularMap(list);
    highlight && active < |flags| && flags[active]
  }

  /** The highlight is exactly "toggle on and the active entry irregular";
      flipping the toggle (`value => !value`) changes the highlight exactly
      when the active entry is irregular. */
  lemma HighlightedIffIrregular(highlight: bool, list: seq<Conjugation>, active: nat)
    ensures Highlighted(highlight, list, active) <==> highlight && active < |list| && IsIrregular(list[active])
    ensures (Highlighted(!highlight, list, active) != Highlighted(highlight, list, active))
            <==> active < |list| && IsIrregular(list[active])
    ensures !Highlighted(false, list, active)
  {
  }

  /** `value || fallback` on a string that may be missing. */
  function OrElse(value: Option<string>, fallback: string): (r: string)
    ensures r == fallback <==> value.None? || value.value == "" || value.value == fallback
    ensures r != fallback ==> value == Some(r)
  {
    if value.Some? && value.value != "" then value.value else fallback
  }

  const Dash := " \U{2014} "

  function Header(c: Conjugation): string {
    OrElse(c.verb, "Verbo") + Dash + OrElse(c.tense, "Tiempo")
  }

  function Row(f: Form): string {
    OrElse(f.person, "") + ": " + OrElse(f.form, "")
  }

  /** One row per form, in order; a missing form list gives no rows. */
  function Rows(c: Conjugation): (r: seq<string>)
    ensures |r| == |c.forms.GetOr([])|
    ensures forall k :: 0 <= k < |r| ==> r[k] == Row(c.forms.value[k])
  {
    var forms := c.forms.GetOr([]);
    seq(|forms|, k requires 0 <= k < |forms| => Row(forms[k]))
  }

  /** `handleCopy`: nothing without an active entry, else the header, a
      newline and the rows joined by newlines. */
  function CopyText(list: seq<Conjugation>, active: nat): (r: Option<string>)
    ensures r.None? <==> active >= |list|
    ensures r.Some? ==> Header(list[active]) + "\n" <= r.value
  {
    if active < |list| then
      var c := list[active];
      Some(Header(c) + "\n" + Text.Join(Rows(c), "\n"))
    else None
  }

  /** No newline in any text of the entry. */
  predicate SingleLine(c: Conjugation) {
    (c.verb.Some? ==> '\n' !in c.verb.value)
    && (c.tense.Some? ==> '\n' !in c.tense.value)
    && (c.forms.Some? ==> forall k :: 0 <= k < |c.forms.value| ==>
          (c.forms.value[k].person.Some? ==> '\n' !in c.forms.value[k].person.value)
          && (c.forms.value[k].form.Some? ==> '\n' !in c.forms.value[k].form.value))
  }

  /** Read back line by line, the copied text gives the header and then one
      line per form; with no forms the header is followed by one empty line. */
  lemma CopyTextLines(list: seq<Conjugation>, active: nat)
    requires active < |list| && SingleLine(list[active])
    ensures CopyText(list, active).Some?
    ensures var lines := Text.Split(CopyText(list, active).value, '\n');
            lines == [Header(list[active])] + (if Rows(list[active]) == [] then [""] else Rows(list[active]))
  {
    var c := list[active];
    var h := Header(c);
    var rows := Rows(c);
    assert '\n' !in h;
    if rows == [] {
      assert CopyText(list, active).value == h + "\n";
      Text.SplitPrefix(h, "\n", '\n');
      assert Text.Split("\n", '\n') == ["", ""];
      assert h + "" == h;
      assert (if rows == [] then [""] else rows) == [""];
    } else {
      var parts := [h] + rows;
      assert parts[1..] == rows;
      assert Text.Join(parts, "\n") == h + "\n" + Text.Join(rows, "\n");
      forall k | 0 <= k < |parts| ensures '\n' !in parts[k] {
        if k > 0 {
          assert parts[k] == Row(c.forms.value[k - 1]);
        }
      }
      Text.SplitJoin(parts, '\n');
    }
  }

  /** Missing verb and tense fall back to the Spanish placeholders. */
  lemma CopyTextDefaults(forms: Option<seq<Form>>)
    ensures Header(Conjugation(None, Some(""), None, forms)) == "Verbo \U{2014} Tiempo"
  {
  }
}

=== FILE: dialog_simulation.dfy ===
/** The dialog simulator: a dialog's messages are revealed one at a time,
    and after the last one the practice questions are shown. */
module DialogSimulation {
  import opened Wrappers
  import Text

  datatype Message = Message(speaker: string, text: string)

  datatype Question = Question(prompt: string, answers: seq<string>)

  datatype Dialog = Dialog(id: string, title: string, scenario: string, conversation: seq<Message>, practice: seq<Question>)

  /** The selected dialog, the index of the last revealed message, the
      practice answer and whether the practice questions are shown. */
  datatype DialogState = DialogState(selected: Option<Dialog>, index: nat, answer: string, practice: bool)

  const Initial := DialogState(None, 0, "", false)

  /** Index of the last message (0 for an empty conversation). */
  function LastIndex(d: Dialog): nat {
    if |d.conversation| == 0 then 0 else |d.conversation| - 1
  }

  /** Every state the handlers can reach: no index without a dialog, and
      never past the last message. */
  predicate Valid(s: DialogState) {
    match s.selected
    case None => s.index == 0
    case Some(d) => s.index <= LastIndex(d)
  }

  /** `handleDialogSelect(dialog)`. */
  function Select(s: DialogState, d: Dialog): (r: DialogState)
    ensures r == DialogState(Some(d), 0, "", false)
  {
    DialogState(Some(d), 0, "", false)
  }

  /** `handleNext`: reveal the next message, or after the last one switch to practice. */
  function Next(s: DialogState): (r: DialogState)
    requires s.selected.Some?
    ensures r.selected == s.selected && r.answer == s.answer
    ensures s.index < |s.selected.value.conversation| - 1 ==> r == s.(index := s.index + 1)
    ensures s.index >= |s.selected.value.conversation| - 1 ==> r == s.(practice := true)
  {
    if s.index < |s.selected.value.conversation| - 1 then s.(index := s.index + 1)
    else s.(practice := true)
  }

  /** `handlePrevious`: step back, but never below the first message. */
  function Previous(s: DialogState): (r: DialogState)
    ensures s.index > 0 ==> r == s.(index := s.index - 1)
    ensures s.index == 0 ==> r == s
  {
    if s.index > 0 then s.(index := s.index - 1) else s
  }

  /** `handleRestart`: back to the first message of the same dialog. */
  function Restart(s: DialogState): (r: DialogState)
    ensures r == DialogState(s.selected, 0, "", false)
  {
    s.(index := 0, practice := false, answer := "")
  }

  function AnswerChange(s: DialogState, value: string): DialogState {
    s.(answer := value)
  }

  /** Every handler keeps the state valid. */
  lemma HandlersKeepValid(s: DialogState, d: Dialog, value: string)
    requires Valid(s)
    ensures Valid(Select(s, d)) && Valid(Previous(s)) && Valid(Restart(s)) && Valid(AnswerChange(s, value))
    ensures s.selected.Some? ==> Valid(Next(s))
  {
  }

  /** The messages on screen: the prefix up to and including the current
      one while the conversation card is shown (JavaScript's `slice` clamps
      the end to the length). */
  function Visible(s: DialogState): Option<seq<Message>> {
    match s.selected
    case Some(d) =>
      if s.practice then None
      else Some(d.conversation[..if s.index + 1 <= |d.conversation| then s.index + 1 else |d.conversation|])
    case None => None
  }

  /** In a valid state with messages, exactly index + 1 of them are visible. */
  lemma VisibleIsPrefix(s: DialogState)
    requires Valid(s) && s.selected.Some? && !s.practice && |s.selected.value.conversation| > 0
    ensures Visible(s) == Some(s.selected.value.conversation[..s.index + 1])
    ensures |Visible(s).value| == s.index + 1
  {
  }

  /** Pressing Next before the end reveals exactly one more message. */
  lemma NextRevealsOneMore(s: DialogState)
    requires Valid(s) && s.selected.Some? && !s.practice
    requires s.index < |s.selected.value.conversation| - 1
    ensures Visible(Next(s)) == Some(Visible(s).value + [s.selected.value.conversation[s.index + 1]])
  {
    var c := s.selected.value.conversation;
    assert c[..s.index + 2] == c[..s.index + 1] + [c[s.index + 1]];
  }

  /** `n` presses of Next: the dialog and the answer stay, the index moves
      forward by at most `n`, and a valid state stays valid. */
  function NextTimes(s: DialogState, n: nat): (r: DialogState)
    requires s.selected.Some?
    ensures r.selected == s.selected && r.answer == s.answer
    ensures s.index <= r.index <= s.index + n
    ensures Valid(s) ==> Valid(r)
    decreases n
  {
    if n == 0 then s else NextTimes(Next(s), n - 1)
  }

  /** From a freshly selected dialog, the practice questions appear after
      exactly as many presses of Next as there are messages (one for an
      empty conversation), and the last message is then the current one. */
  lemma {:induction false} PracticeAfterEveryMessage(d: Dialog, n: nat)
    ensures var s := NextTimes(Select(Initial, d), n);
            && (s.practice <==> n >= |d.conversation| && n >= 1)
            && s.index == (if n <= LastIndex(d) then n else LastIndex(d))
    decreases n
  {
    if n > 0 {
      PracticeAfterEveryMessage(d, n - 1);
      NextTimesLast(Select(Initial, d), n - 1);
    }
  }

  /** One more press after n - 1 presses. */
  lemma {:induction false} NextTimesLast(s: DialogState, n: nat)
    requires s.selected.Some?
    ensures NextTimes(s, n + 1) == Next(NextTimes(s, n))
    decreases n
  {
    if n > 0 {
      NextTimesLast(Next(s), n - 1);
    }
  }

  /** The counter under the messages: "Message i of n", where i counts
      from one. */
  function Counter(s: DialogState): string
    requires s.selected.Some?
  {
    "Message " + Text.NatToString(s.index + 1) + " of " + Text.NatToString(|s.selected.value.conversation|)
  }

  /** In a valid state the counter's first number is the number of visible
      messages and the second one the conversation's length, so the first
      never exceeds the second. */
  lemma CounterCountsVisible(s: DialogState)
    requires Valid(s) && s.selected.Some? && !s.practice && |s.selected.value.conversation| > 0
    ensures var shown := Text.NatToString(|Visible(s).value|);
            var total := Text.NatToString(|s.selected.value.conversation|);
            && Counter(s) == "Message " + shown + " of " + total
            && Text.ParseNat(shown) <= Text.ParseNat(total)
  {
    VisibleIsPrefix(s);
    Text.ParseNatToString(|Visible(s).value|);
    Text.ParseNatToString(|s.selected.value.conversation|);
  }

  /** A dialog without messages shows none, and its counter reads
      "Message 1 of 0". */
  lemma EmptyConversationCounter(s: DialogState)
    requires Valid(s) && s.selected.Some? && !s.practice && |s.selected.value.conversation| == 0
    ensures Visible(s) == Some([])
    ensures Counter(s) == "Message 1 of 0"
  {
    assert Text.NatToString(1) == "1" && Text.NatToString(0) == "0";
  }

  /** The speaker style alternates with the message's position. */
  function SpeakerClass(position: nat): (c: string)
    ensures c == "speaker-a" <==> position % 2 == 0
    ensures c == "speaker-a" || c == "speaker-b"
  {
    if position % 2 == 0 then "speaker-a" else "speaker-b"
  }

  /** Neighbouring messages never share a style. */
  lemma SpeakersAlternate(position: nat)
    ensures SpeakerClass(position) != SpeakerClass(position + 1)
  {
  }

  const Placeholder := "No dialogs available for this language."

  /** What the module shows: the placeholder, or the dialog list with the
      conversation card (visible messages and counter) or the practice card. */
  datatype Screen =
    | Empty(message: string)
    | Dialogs(conversation: Option<seq<Message>>, counter: Option<string>, practice: Option<seq<Question>>)

  /** A missing dialog list shows only the placeholder; otherwise a selected
      dialog shows either its conversation so far with the counter, or its
      practice questions, never both. */
  function Render(dialogs: Option<seq<Dialog>>, s: DialogState): (v: Screen)
    ensures v.Empty? <==> dialogs.None?
    ensures v.Empty? ==> v.message == Placeholder
    ensures v.Dialogs? ==> (v.conversation.Some? <==> s.selected.Some? && !s.practice)
    ensures v.Dialogs? ==> (v.practice.Some? <==> s.selected.Some? && s.practice)
    ensures v.Dialogs? ==> v.conversation.None? || v.practice.None?
    ensures v.Dialogs? && v.conversation.Some? ==> v.conversation == Visible(s) && v.counter == Some(Counter(s))
    ensures v.Dialogs? && v.practice.Some? ==> v.practice.value == s.selected.value.practice
  {
    if dialogs.None? then Empty(Placeholder)
    else match s.selected
      case None => Dialogs(None, None, None)
      case Some(d) =>
        if s.practice then Dialogs(None, None, Some(d.practice))
        else Dialogs(Visible(s), Some(Counter(s)), None)
  }
}

=== FILE: exercise_accordion.dfy ===
/** The practice accordion: a list of sections of which at most one is
    open, the first one initially. */
module ExerciseAccordion {
  import opened Wrappers
  import AppendixPage

  datatype Section = Section(id: string, title: string, description: string)

  /** The open section id, `None` once it has been closed. */
  type OpenId = Option<string>

  predicate IsOpen(openId: OpenId, s: Section) {
    openId == Some(s.id)
  }

  /** Nothing is rendered for an empty list; otherwise the first section's
      id is the initial open id. */
  function Init(sections: seq<Section>): (r: Option<OpenId>)
    ensures r.None? <==> sections == []
    ensures r.Some? ==> IsOpen(r.value, sections[0])
  {
    if |sections| == 0 then None else Some(Some(sections[0].id))
  }

  /** The toggle button: the open section closes, a closed one opens. */
  function Click(openId: OpenId, s: Section): (r: OpenId)
    ensures IsOpen(openId, s) ==> r.None?
    ensures !IsOpen(openId, s) ==> IsOpen(r, s)
  {
    if IsOpen(openId, s) then None else Some(s.id)
  }

  predicate DistinctIds(sections: seq<Section>) {
    forall i, j :: 0 <= i < j < |sections| ==> sections[i].id != sections[j].id
  }

  /** Whatever the open id, at most one section with a distinct id is open. */
  lemma AtMostOneOpen(sections: seq<Section>, openId: OpenId)
    requires DistinctIds(sections)
    ensures forall i, j :: (0 <= i < |sections| && 0 <= j < |sections|
              && IsOpen(openId, sections[i]) && IsOpen(openId, sections[j])) ==> i == j
  {
  }

  /** Initially exactly the first section is open. */
  lemma InitOpensOnlyFirst(sections: seq<Section>)
    requires DistinctIds(sections) && sections != []
    ensures forall i :: 0 <= i < |sections| ==> (IsOpen(Init(sections).value, sections[i]) <==> i == 0)
  {
    AtMostOneOpen(sections, Init(sections).value);
  }

  /** After a click on a section, only that section can be open. */
  lemma ClickOpensOnlyThat(sections: seq<Section>, openId: OpenId, k: nat)
    requires DistinctIds(sections) && k < |sections|
    ensures forall i :: 0 <= i < |sections| && i != k ==> !IsOpen(Click(openId, sections[k]), sections[i])
  {
    var r := Click(openId, sections[k]);
    forall i | 0 <= i < |sections| && i != k
      ensures !IsOpen(r, sections[i])
    {
      if r.Some? {
        AtMostOneOpen(sections, r);
        assert IsOpen(r, sections[k]);
      }
    }
  }

  /** Two clicks on the same section from "all closed" or "it open"
      restore the accordion. */
  lemma ClickTwice(openId: OpenId, s: Section)
    requires openId.None? || IsOpen(openId, s)
    ensures Click(Click(openId, s), s) == openId
  {
  }

  /** The accordion's click is the appendix list's toggle, applied to a
      section with a non-empty id. */
  lemma ClickIsAppendixToggle(openId: OpenId, s: Section)
    requires s.id != ""
    ensures Click(openId, s) == AppendixPage.Toggle(openId, s.id)
  {
  }
}

=== FILE: grammar_topic.dfy ===
/** A grammar topic page: the topic is looked up in the level's grammar
    file, its tabs are enabled by the content it carries, and an active tab
    that is not enabled falls back to the first one that is. */
module GrammarTopic {
  import opened Wrappers
  import Json
  import Panels
  import QuickCheck
  import ConjugationTable
  import ExerciseAccordion
  import BundleLoader
  import Seqs

  datatype Topic = Topic(
    id: string,
    title: string,
    translations: Option<map<string, Json.Json>>,
    points: Option<seq<string>>,
    details: Option<seq<string>>,
    practice: Option<seq<string>>,
    interactions: Option<seq<QuickCheck.Item>>,
    conjugations: Option<seq<ConjugationTable.Conjugation>>)

  /** The level's grammar file; `topics` is `None` when it is missing. */
  datatype GrammarFile = GrammarFile(topics: Option<seq<Topic>>)

  /** The grammar-file request, answered with the parsed file. */
  type TopicFetcher = string -> Result<GrammarFile, BundleLoader.FetchError>

  datatype Tab = Overview | Conjugations | Practice | Tips

  const TabOrder: seq<Tab> := [Overview, Conjugations, Practice, Tips]

  /** `Array.isArray(list) && list.length > 0`. */
  predicate NonEmpty<T>(list: Option<seq<T>>) {
    list.Some? && |list.value| > 0
  }

  /** Which tabs the topic enables; nothing is enabled without a topic. */
  predicate Enabled(topic: Option<Topic>, tab: Tab) {
    match topic
    case None => false
    case Some(t) =>
      match tab
      case Overview => true
      case Conjugations => NonEmpty(t.conjugations)
      case Practice => NonEmpty(t.practice) || NonEmpty(t.interactions)
      case Tips => NonEmpty(t.details)
  }

  /** A tab's position in the tab bar. */
  function Position(tab: Tab): (k: nat)
    ensures k < 4 && TabOrder[k] == tab
  {
    match tab
    case Overview => 0
    case Conjugations => 1
    case Practice => 2
    case Tips => 3
  }

  /** `tabs.find((tab) => tab.enabled)` over the tabs from position `from` on. */
  function FirstEnabledFrom(topic: Option<Topic>, from: nat): (r: Option<Tab>)
    requires from <= 4
    ensures r.Some? ==> from <= Position(r.value) && Enabled(topic, r.value)
                        && forall j :: from <= j < Position(r.value) ==> !Enabled(topic, TabOrder[j])
    ensures r.None? ==> forall j :: from <= j < 4 ==> !Enabled(topic, TabOrder[j])
    decreases 4 - from
  {
    if from == 4 then None
    else if Enabled(topic, TabOrder[from]) then Some(TabOrder[from])
    else FirstEnabledFrom(topic, from + 1)
  }

  /** The effect that repairs the active tab: an enabled tab stays, a
      disabled one becomes the first enabled tab, and with no enabled tab
      nothing changes. */
  function ActiveTabEffect(topic: Option<Topic>, active: Tab): (r: Tab)
    ensures Enabled(topic, active) ==> r == active
    ensures !Enabled(topic, active) && (exists j :: 0 <= j < 4 && Enabled(topic, TabOrder[j])) ==>
              Enabled(topic, r) && forall j :: 0 <= j < Position(r) ==> !Enabled(topic, TabOrder[j])
    ensures (forall j :: 0 <= j < 4 ==> !Enabled(topic, TabOrder[j])) ==> r == active
  {
    if Enabled(topic, active) then active
    else match FirstEnabledFrom(topic, 0)
      case Some(t) => t
      case None => active
  }

  /** Running the effect again changes nothing. */
  lemma ActiveTabEffectSettles(topic: Option<Topic>, active: Tab)
    ensures ActiveTabEffect(topic, ActiveTabEffect(topic, active)) == ActiveTabEffect(topic, active)
  {
    if !Enabled(topic, active) && FirstEnabledFrom(topic, 0).Some? {
      assert Enabled(topic, FirstEnabledFrom(topic, 0).value);
    }
  }

  /** With a topic loaded the active tab always ends up enabled, and a
      disabled one falls back to the overview. */
  lemma TopicFallsBackToOverview(topic: Option<Topic>, active: Tab)
    requires topic.Some?
    ensures Enabled(topic, ActiveTabEffect(topic, active))
    ensures !Enabled(topic, active) ==> ActiveTabEffect(topic, active) == Overview
  {
    assert Enabled(topic, TabOrder[0]);
  }

  /** A click on a tab: a disabled tab is ignored. */
  function ClickTab(topic: Option<Topic>, active: Tab, tab: Tab): (r: Tab)
    ensures r == tab || r == active
    ensures r == tab <==> Enabled(topic, tab) || tab == active
  {
    if Enabled(topic, tab) then tab else active
  }

  /** Clicks never leave an enabled active tab for a disabled one. */
  lemma ClickKeepsEnabled(topic: Option<Topic>, active: Tab, tab: Tab)
    requires Enabled(topic, active)
    ensures Enabled(topic, ClickTab(topic, active, tab))
    ensures ActiveTabEffect(topic, ClickTab(topic, active, tab)) == ClickTab(topic, active, tab)
  {
  }

  /** The first topic with the requested id. */
  function FindTopic(topics: seq<Topic>, id: string): (r: Option<nat>)
    ensures r.Some? ==> r.value < |topics| && topics[r.value].id == id
                        && forall j :: 0 <= j < r.value ==> topics[j].id != id
    ensures r.None? ==> forall j :: 0 <= j < |topics| ==> topics[j].id != id
  {
    Seqs.FindFirst(topics, (t: Topic) => t.id == id)
  }

  datatype TopicPage = TopicPage(status: Panels.PanelStatus, topic: Option<Topic>, active: Tab)

  const Loading := Panels.PanelStatus("Loading topic...", true, false)
  const NotFound := Panels.PanelStatus("Topic not found in this level.", false, true)
  const Ready := Panels.PanelStatus("Ready", false, false)
  const Failure := Panels.PanelStatus("Unable to load grammar topic. Please try again.", false, true)

  const InitialPage := TopicPage(Loading, None, Overview)

  /** `/data/languages/{lang}/levels/{level}/grammar.json`, the same file the
      appendix bundle loads, from the site root. */
  function GrammarPath(lang: string, level: string): (p: string)
    ensures p == "/" + BundleLoader.ResourcePath(lang, level, "grammar")
  {
    "/data/languages/" + lang + "/levels/" + level + "/grammar.json"
  }

  /** The page while the request is pending and once it has settled. */
  datatype TopicStep = TopicStep(pending: TopicPage, settled: TopicPage, requested: string)

  /** `loadTopic`: on a failed request only the status changes (the previous
      topic and tab stay); a grammar file without the topic clears the
      topic; a found topic becomes current on the overview tab. */
  function LoadTopic(page: TopicPage, fetch: TopicFetcher, lang: string, level: string, topicId: string): (r: TopicStep)
    ensures r.requested == GrammarPath(lang, level)
    ensures r.pending == page.(status := Loading)
    ensures fetch(r.requested).Err? ==> r.settled == page.(status := Failure)
    ensures fetch(r.requested).Ok? ==>
      var topics := fetch(r.requested).value.topics.GetOr([]);
      && (r.settled.topic.None? <==> forall j :: 0 <= j < |topics| ==> topics[j].id != topicId)
      && (r.settled.topic.None? ==> r.settled.status == NotFound && r.settled.active == page.active)
      && (r.settled.topic.Some? ==>
            && r.settled.topic.value.id == topicId
            && (exists k :: 0 <= k < |topics| && topics[k] == r.settled.topic.value
                            && forall j :: 0 <= j < k ==> topics[j].id != topicId)
            && r.settled.status == Ready && r.settled.active == Overview)
  {
    var path := GrammarPath(lang, level);
    var pending := page.(status := Loading);
    var settled :=
      match fetch(path)
      case Err(_) => pending.(status := Failure)
      case Ok(file) =>
        var topics := file.topics.GetOr([]);
        match FindTopic(topics, topicId)
        case None => pending.(status := NotFound, topic := None)
        case Some(k) => TopicPage(Ready, Some(topics[k]), Overview);
    TopicStep(pending, settled, path)
  }

  /** Every settled page is no longer busy, and one with a topic has an
      enabled active tab that the fallback effect leaves alone. */
  lemma LoadedTopicHasEnabledTab(page: TopicPage, fetch: TopicFetcher, lang: string, level: string, topicId: string)
    requires Enabled(page.topic, page.active) || page.topic.None?
    ensures var s := LoadTopic(page, fetch, lang, level, topicId).settled;
            && !s.status.busy
            && (s.topic.Some? ==> Enabled(s.topic, s.active) && ActiveTabEffect(s.topic, s.active) == s.active)
  {
  }

  /** The overlay for the interface language: `translations?.[ui] ?? null`. */
  function Overlay(topic: Option<Topic>, ui: string): Option<Json.Json> {
    if topic.Some? && topic.value.translations.Some? && ui in topic.value.translations.value
    then Some(topic.value.translations.value[ui])
    else None
  }

  /** Translations are shown when a truthy overlay exists for the interface
      language, both codes are non-empty, and they differ. */
  predicate ShowTranslation(topic: Option<Topic>, ui: string, lang: string) {
    var overlay := Overlay(topic, ui);
    overlay.Some? && Json.Truthy(overlay.value) && ui != "" && lang != "" && ui != lang
  }

  /** Learning a language in that same language never shows a translation,
      nor does a page without a topic; an object overlay for another
      language always does. */
  lemma ShowTranslationCases(topic: Option<Topic>, ui: string, lang: string)
    ensures ShowTranslation(topic, lang, lang) == false
    ensures ShowTranslation(None, ui, lang) == false
    ensures topic.Some? && topic.value.translations.Some? && ui in topic.value.translations.value
            && topic.value.translations.value[ui].JObj? && ui != "" && lang != "" && ui != lang
            ==> ShowTranslation(topic, ui, lang)
  {
  }

  const PromptDeck := ExerciseAccordion.Section(
    "prompts", "Prompt deck", "Use these guided prompts for quick writing or speaking drills.")
  const QuickChecks := ExerciseAccordion.Section(
    "interactive", "Quick checks", "Answer the interactive exercises below and reveal hints when needed.")

  /** The practice accordion's sections: the prompt deck before the quick
      checks, each only when its list is non-empty. */
  function PracticeSections(topic: Option<Topic>): (r: seq<ExerciseAccordion.Section>)
    ensures topic.None? ==> r == []
    ensures |r| <= 2
    ensures (PromptDeck in r) <==> topic.Some? && NonEmpty(topic.value.practice)
    ensures (QuickChecks in r) <==> topic.Some? && NonEmpty(topic.value.interactions)
    ensures forall k :: 0 <= k < |r| ==> r[k] == PromptDeck || r[k] == QuickChecks
    ensures |r| == 2 ==> r[0] == PromptDeck && r[1] == QuickChecks
  {
    if topic.None? then []
    else
      (if NonEmpty(topic.value.practice) then [PromptDeck] else [])
      + (if NonEmpty(topic.value.interactions) then [QuickChecks] else [])
  }

  /** The practice tab is enabled exactly when the accordion has sections,
      so "No practice content for this topic yet." is never reachable
      through an enabled tab. */
  lemma PracticeTabIffSections(topic: Option<Topic>)
    ensures PracticeSections(topic) != [] <==> Enabled(topic, Practice)
  {
    var r := PracticeSections(topic);
    if r != [] {
      assert r[0] == PromptDeck || r[0] == QuickChecks;
      assert r[0] in r;
    }
  }

  /** The accordion opens on exactly one section: the prompt deck when there
      are prompts, the quick checks otherwise. */
  lemma PracticeAccordionOpensFirst(topic: Option<Topic>)
    requires Enabled(topic, Practice)
    ensures ExerciseAccordion.Init(PracticeSections(topic)).Some?
    ensures var sections := PracticeSections(topic);
            var open := ExerciseAccordion.Init(sections).value;
            && (NonEmpty(topic.value.practice) ==> open == Some("prompts"))
            && (!NonEmpty(topic.value.practice) ==> open == Some("interactive"))
            && forall i :: 0 <= i < |sections| ==> (ExerciseAccordion.IsOpen(open, sections[i]) <==> i == 0)
  {
    var sections := PracticeSections(topic);
    PracticeTabIffSections(topic);
    assert ExerciseAccordion.DistinctIds(sections);
    ExerciseAccordion.InitOpensOnlyFirst(sections);
  }
}

=== FILE: json.dfy ===
/** The parsed JSON documents the pages read, with the two JavaScript
    observations the loaders rely on: truthiness and `.length`. */
module Json {
  import opened Wrappers

  /** Numbers are modelled as integers. */
  datatype Json =
    | JNull
    | JBool(b: bool)
    | JNum(n: int)
    | JStr(s: string)
    | JArr(items: seq<Json>)
    | JObj(fields: map<string, Json>)

  /** JavaScript truthiness of a JSON value. */
  predicate Truthy(j: Json) {
    match j
    case JNull => false
    case JBool(b) => b
    case JNum(n) => n != 0
    case JStr(s) => s != ""
    case JArr(_) => true
    case JObj(_) => true
  }

  /** `value.key` or `value?.key`: only objects carry named fields; on
      anything else (including null) the lookup is undefined (`None`). */
  function Field(j: Json, key: string): Option<Json> {
    if j.JObj? && key in j.fields then Some(j.fields[key]) else None
  }

  /** `value.length`: defined for strings and arrays only. */
  function Length(j: Json): Option<nat> {
    match j
    case JStr(s) => Some(|s|)
    case JArr(items) => Some(|items|)
    case _ => None
  }

  /** `data && Array.isArray(data[key]) ? data[key] : []`. */
  function ArrayField(j: Json, key: string): seq<Json> {
    match Field(j, key)
    case Some(JArr(items)) => items
    case _ => []
  }

  /** A string-valued field; other values and absent fields are `None`. */
  function StringField(j: Json, key: string): Option<string> {
    match Field(j, key)
    case Some(JStr(s)) => Some(s)
    case _ => None
  }
}

=== FILE: main_page.dfy ===
/** The static page script: the language layer (language data memoised per
    code, the active-language label, the load status line) and the appendix
    section's four panels. */
module MainPage {
  import opened Wrappers
  import opened Json
  import opened Panels
  import opened BundleLoader
  import Text
  import Manifest

  // ---- language data --------------------------------------------------

  function LanguagePath(code: string): string {
    "data/languages/" + code + ".json"
  }

  datatype LanguageLoad = LanguageLoad(result: Result<Json, FetchError>, cache: map<string, Json>, requests: seq<string>)

  /** `getLanguageData(code)`: a cached payload comes back with no request; a
      fresh one is cached only when its request succeeds. */
  function GetLanguageData(cache: map<string, Json>, fetch: Fetcher, code: string): (l: LanguageLoad)
    ensures code in cache ==> l == LanguageLoad(Ok(cache[code]), cache, [])
    ensures code !in cache ==> l.requests == [LanguagePath(code)] && l.result == fetch(LanguagePath(code))
    ensures l.result.Ok? ==> l.cache == cache[code := l.result.value]
    ensures l.result.Err? ==> l.cache == cache
  {
    if code in cache then LanguageLoad(Ok(cache[code]), cache, [])
    else match fetch(LanguagePath(code))
      case Ok(payload) => LanguageLoad(Ok(payload), cache[code := payload], [LanguagePath(code)])
      case Err(e) => LanguageLoad(Err(e), cache, [LanguagePath(code)])
  }

  /** One success is enough: the same code then comes from the cache with no
      request, whatever the network does; a failure is never cached. */
  lemma LanguageDataMemoised(cache: map<string, Json>, fetch: Fetcher, later: Fetcher, code: string)
    ensures var first := GetLanguageData(cache, fetch, code);
            first.result.Ok? ==> GetLanguageData(first.cache, later, code) == LanguageLoad(first.result, first.cache, [])
    ensures var first := GetLanguageData(cache, fetch, code);
            first.result.Err? ==> GetLanguageData(first.cache, later, code).requests == [LanguagePath(code)]
  {
  }

  // ---- active-language label ---------------------------------------------

  const LabelSeparator := " \U{00B7} "

  /** The parts of the active-language label, or `None` when the payload has
      no truthy `language` (the label is then left as it was): the name; the
      native name only when it is truthy and differs from the name; and
      "Level X" only when a truthy level is given. */
  function LabelParts(payload: Json): (r: Option<seq<string>>)
    ensures r.None? <==> !(Field(payload, "language").Some? && Truthy(Field(payload, "language").value))
    ensures r.Some? ==>
              var info := Field(payload, "language").value;
              var name := StringField(info, "name");
              var native := StringField(info, "nativeName");
              var level := StringField(info, "level");
              var showNative := Manifest.Truthy(native) && native != name;
              var showLevel := Manifest.Truthy(level);
              && |r.value| == 1 + (if showNative then 1 else 0) + (if showLevel then 1 else 0)
              && r.value[0] == name.GetOr("")
              && (showNative ==> r.value[1] == native.value)
              && (showLevel ==> r.value[|r.value| - 1] == "Level " + level.value)
  {
    match Field(payload, "language")
    case Some(info) =>
      if !Truthy(info) then None
      else
        var name := StringField(info, "name");
        var native := StringField(info, "nativeName");
        var level := StringField(info, "level");
        var parts := [name.GetOr("")];
        var parts := if Manifest.Truthy(native) && native != name then parts + [native.value] else parts;
        var parts := if Manifest.Truthy(level) then parts + ["Level " + level.value] else parts;
        Some(parts)
    case None => None
  }

  /** `updateActiveLanguageLabel(payload)`: the parts joined by " · ". */
  function ActiveLanguageLabel(payload: Json): Option<string> {
    match LabelParts(payload)
    case None => None
    case Some(parts) => Some(Text.Join(parts, LabelSeparator))
  }

  /** A native name equal to the name, and an absent level, leave only the name. */
  lemma LabelIsNameAlone(payload: Json, info: Json)
    requires Field(payload, "language") == Some(info) && Truthy(info)
    requires StringField(info, "nativeName") == StringField(info, "name") || !Manifest.Truthy(StringField(info, "nativeName"))
    requires !Manifest.Truthy(StringField(info, "level"))
    ensures ActiveLanguageLabel(payload) == Some(StringField(info, "name").GetOr(""))
  {
  }

  // ---- language load status ------------------------------------------------

  /** The language layer: its status line, the active code, the label text
      and the language-data cache. */
  datatype LanguageLayer = LanguageLayer(status: PanelStatus, active: Option<string>, labelText: string, cache: map<string, Json>)

  datatype LanguageStep = LanguageStep(pending: LanguageLayer, settled: LanguageLayer, requests: seq<string>)

  /** `loadLanguage(code, { silent })`. An empty code does nothing. A
      non-silent load first shows "Loading CODE content..." as busy. On
      success the code becomes active, the label is refreshed and the status
      reads "NAME data ready."; reading the name throws when the payload's
      `language` is null or absent, and that, like a failed request, ends in
      "Could not load CODE data." as an error. */
  function LoadLanguage(layer: LanguageLayer, fetch: Fetcher, code: string, silent: bool): (s: LanguageStep)
    ensures code == "" ==> s == LanguageStep(layer, layer, [])
    ensures code != "" && !silent ==>
              s.pending.status == PanelStatus("Loading " + Text.Upper(code) + " content...", true, false)
    ensures code != "" && silent ==> s.pending == layer
    ensures s.pending == layer.(status := s.pending.status)
    ensures code != "" && GetLanguageData(layer.cache, fetch, code).result.Err? ==>
              s.settled.active == layer.active && s.settled.labelText == layer.labelText
    ensures code != "" && GetLanguageData(layer.cache, fetch, code).result.Ok? ==>
              s.settled.labelText ==
                ActiveLanguageLabel(GetLanguageData(layer.cache, fetch, code).result.value).GetOr(layer.labelText)
    ensures code != "" ==> !s.settled.status.busy
    ensures code != "" ==> s.settled.cache == GetLanguageData(layer.cache, fetch, code).cache
    ensures code != "" ==>
              (s.settled.active == Some(code) <==> GetLanguageData(layer.cache, fetch, code).result.Ok? || layer.active == Some(code))
    ensures code != "" ==>
              (s.settled.status.error <==>
                 match GetLanguageData(layer.cache, fetch, code).result
                 case Err(_) => true
                 case Ok(data) => Field(data, "language").None? || Field(data, "language") == Some(JNull))
    ensures code != "" && s.settled.status.error ==>
              s.settled.status.message == "Could not load " + Text.Upper(code) + " data."
    ensures code != "" && !s.settled.status.error ==>
              var info := Field(GetLanguageData(layer.cache, fetch, code).result.value, "language").value;
              s.settled.status.message == StringField(info, "name").GetOr("undefined") + " data ready."
  {
    if code == "" then LanguageStep(layer, layer, [])
    else
      var pending :=
        if silent then layer
        else layer.(status := PanelStatus("Loading " + Text.Upper(code) + " content...", true, false));
      var l := GetLanguageData(layer.cache, fetch, code);
      var failed := PanelStatus("Could not load " + Text.Upper(code) + " data.", false, true);
      var settled :=
        match l.result
        case Err(_) => pending.(status := failed, cache := l.cache)
        case Ok(data) =>
          var activated := pending.(active := Some(code), cache := l.cache,
                                    labelText := ActiveLanguageLabel(data).GetOr(pending.labelText));
          match Field(data, "language")
          case None => activated.(status := failed)
          case Some(JNull) => activated.(status := failed)
          case Some(info) =>
            activated.(status := Plain(StringField(info, "name").GetOr("undefined") + " data ready."));
      LanguageStep(pending, settled, l.requests)
  }

  /** A payload without `language` still switches the active code, while the
      status line reports that the language could not be loaded. */
  lemma MissingLanguageBlockStillActivates(layer: LanguageLayer, code: string)
    requires code != "" && code !in layer.cache
    ensures var fetch: Fetcher := (p: string) => Ok(JObj(map[]));
            var s := LoadLanguage(layer, fetch, code, true);
            s.settled.active == Some(code) && s.settled.status.error
  {
  }

  /** The layer's invariant: the active code always has its data cached. */
  predicate ActiveCached(layer: LanguageLayer) {
    layer.active.Some? ==> layer.active.value in layer.cache
  }

  /** A code becomes active only once its data has loaded, so every load
      keeps the active code's data in the cache. */
  lemma LoadLanguageKeepsActiveCached(layer: LanguageLayer, fetch: Fetcher, code: string, silent: bool)
    requires ActiveCached(layer)
    ensures ActiveCached(LoadLanguage(layer, fetch, code, silent).pending)
    ensures ActiveCached(LoadLanguage(layer, fetch, code, silent).settled)
  {
  }

  /** Loading the active language again makes no request, leaves the cache
      and the active code alone, and does not depend on the network. */
  lemma ReloadActiveMakesNoRequest(layer: LanguageLayer, fetch: Fetcher, other: Fetcher, code: string, silent: bool)
    requires ActiveCached(layer) && layer.active == Some(code) && code != ""
    ensures LoadLanguage(layer, fetch, code, silent).requests == []
    ensures LoadLanguage(layer, fetch, code, silent).settled.cache == layer.cache
    ensures LoadLanguage(layer, fetch, code, silent).settled.active == Some(code)
    ensures LoadLanguage(layer, fetch, code, silent) == LoadLanguage(layer, other, code, silent)
  {
  }

  // ---- appendix panels -----------------------------------------------------

  /** A render* status line: the empty message for no items, otherwise
      "Loaded n noun(s)."; never busy and never an error. */
  function CountStatus(n: nat, emptyMessage: string, noun: string): (s: PanelStatus)
    ensures !s.busy && !s.error
    ensures n == 0 ==> s.message == emptyMessage
    ensures n > 0 ==> s.message == "Loaded " + Text.NatToString(n) + " " + noun + "(s)."
  {
    if n == 0 then Plain(emptyMessage)
    else Plain("Loaded " + Text.NatToString(n) + " " + noun + "(s).")
  }

  /** The count a "Loaded n ..." status line announces, read back from its
      text; `None` for any other line. */
  function LoadedCount(message: string): Option<nat> {
    if |message| >= 7 && message[..7] == "Loaded " then
      var k := Text.DigitRun(message[7..]);
      if k == 0 then None else Some(Text.ParseNat(message[7..][..k]))
    else None
  }

  /** The number a count line shows reads back as the count, and the empty
      line announces no count. */
  lemma CountStatusReadsBack(n: nat, emptyMessage: string, noun: string)
    requires emptyMessage == [] || emptyMessage[0] != 'L'
    ensures LoadedCount(CountStatus(n, emptyMessage, noun).message) == if n == 0 then None else Some(n)
  {
    if n == 0 {
      assert |emptyMessage| >= 7 ==> emptyMessage[..7][0] != "Loaded "[0];
    } else {
      var digits := Text.NatToString(n);
      var msg := CountStatus(n, emptyMessage, noun).message;
      assert msg[7..] == digits + (" " + noun + "(s).");
      Text.DigitRunOf(digits, " " + noun + "(s).");
      assert msg[7..][..|digits|] == digits;
      Text.ParseNatToString(n);
    }
  }

  /** Some entry of `items` satisfies `p`. */
  predicate SomeItem(items: seq<Json>, p: Json -> bool) {
    exists i :: 0 <= i < |items| && p(items[i])
  }

  /** A card whose item is null, or whose `nested` array holds a null, throws
      when its properties are read (`topic.title`, `example.sentence`, ...). */
  predicate CardThrows(item: Json, nested: string) {
    item == JNull || SomeItem(ArrayField(item, nested), (e: Json) => e == JNull)
  }

  /** `capitalize(turn.speaker)` throws for a truthy speaker that is not a string. */
  predicate TurnThrows(turn: Json) {
    turn == JNull || (Field(turn, "speaker").Some? && Truthy(Field(turn, "speaker").value) && !Field(turn, "speaker").value.JStr?)
  }

  predicate SceneThrows(scene: Json) {
    scene == JNull || SomeItem(ArrayField(scene, "dialog"), TurnThrows)
  }

  /** Whether one of the four render functions throws on the bundle. */
  predicate RenderThrows(b: Bundle) {
    || SomeItem(ArrayField(b.grammar, "topics"), (t: Json) => CardThrows(t, "examples"))
    || SomeItem(ArrayField(b.vocabulary, "sets"), (v: Json) => CardThrows(v, "words"))
    || SomeItem(ArrayField(b.conversation, "scenes"), SceneThrows)
    || SomeItem(ArrayField(b.patterns, "patterns"), (p: Json) => CardThrows(p, "examples"))
  }

  /** The panel statuses the four render functions leave for a loaded bundle
      that renders without throwing; a field that is not an array counts as
      no items. */
  function RenderedPanels(b: Bundle): (p: PanelSet)
    ensures p.NoneBusy() && p.NoneError()
  {
    PanelSet(
      CountStatus(|ArrayField(b.grammar, "topics")|, "No grammar topics yet.", "grammar topic"),
      CountStatus(|ArrayField(b.vocabulary, "sets")|, "No vocabulary sets yet.", "set"),
      CountStatus(|ArrayField(b.conversation, "scenes")|, "No conversation scenes yet.", "scene"),
      CountStatus(|ArrayField(b.patterns, "patterns")|, "No patterns provided for this level.", "pattern"))
  }

  /** Each rendered panel announces exactly the number of items in its array,
      and an empty array announces no count. */
  lemma RenderedCountsReadBack(b: Bundle)
    ensures var p := RenderedPanels(b);
            && LoadedCount(p.grammar.message) == NonZero(|ArrayField(b.grammar, "topics")|)
            && LoadedCount(p.vocabulary.message) == NonZero(|ArrayField(b.vocabulary, "sets")|)
            && LoadedCount(p.conversation.message) == NonZero(|ArrayField(b.conversation, "scenes")|)
            && LoadedCount(p.patterns.message) == NonZero(|ArrayField(b.patterns, "patterns")|)
  {
    CountStatusReadsBack(|ArrayField(b.grammar, "topics")|, "No grammar topics yet.", "grammar topic");
    CountStatusReadsBack(|ArrayField(b.vocabulary, "sets")|, "No vocabulary sets yet.", "set");
    CountStatusReadsBack(|ArrayField(b.conversation, "scenes")|, "No conversation scenes yet.", "scene");
    CountStatusReadsBack(|ArrayField(b.patterns, "patterns")|, "No patterns provided for this level.", "pattern");
  }

  function NonZero(n: nat): Option<nat> {
    if n == 0 then None else Some(n)
  }

  /** A missing patterns file renders as the patterns panel's empty message. */
  lemma MissingPatternsRenderEmpty(b: Bundle)
    requires b.patterns == JNull
    ensures RenderedPanels(b).patterns == Plain("No patterns provided for this level.")
  {
  }

  function LoadingPanels(lang: string, level: string): (p: PanelSet)
    ensures p.AllBusy() && p.NoneError()
  {
    PanelSet(
      PanelStatus("Loading " + Text.Upper(lang) + " grammar for " + level + "...", true, false),
      PanelStatus("Loading vocabulary...", true, false),
      PanelStatus("Loading conversation scenes...", true, false),
      PanelStatus("Loading patterns...", true, false))
  }

  /** After a failed load every panel is an error; only grammar carries a message. */
  function FailedPanels(): (p: PanelSet)
    ensures p.AllError() && p.NoneBusy()
    ensures p.grammar.message == "Unable to load appendix data."
    ensures p.vocabulary.message == "" && p.conversation.message == "" && p.patterns.message == ""
  {
    PanelSet(
      PanelStatus("Unable to load appendix data.", false, true),
      PanelStatus("", false, true),
      PanelStatus("", false, true),
      PanelStatus("", false, true))
  }

  function ClearedPanels(): PanelSet {
    Uniform(Plain("Select a language and level."))
  }

  /** The appendix section: panel statuses and the bundle cache. */
  datatype AppendixView = AppendixView(panels: PanelSet, cache: map<string, Bundle>)

  /** The view while the bundle is awaited, the view once it settles, and the
      paths requested in between. */
  datatype AppendixStep = AppendixStep(pending: AppendixView, settled: AppendixView, requests: seq<string>)

  /** `loadAppendixBundle(langCode, level)`. */
  function LoadAppendixBundle(v: AppendixView, fetch: Fetcher, lang: string, level: string): (s: AppendixStep)
    ensures lang == "" || level == "" ==> s == AppendixStep(v, v, [])
    ensures lang != "" && level != "" ==>
              && s.pending == v.(panels := LoadingPanels(lang, level))
              && s.settled.panels.NoneBusy()
              && var l := GetAppendixData(v.cache, fetch, lang, level);
                 && s.settled.cache == l.cache
                 && s.requests == l.requests
                 && (l.result.Err? ==> s.settled.panels == FailedPanels())
                 && (l.result.Ok? && RenderThrows(l.result.value) ==> s.settled.panels == FailedPanels())
                 && (l.result.Ok? && !RenderThrows(l.result.value) ==> s.settled.panels == RenderedPanels(l.result.value))
  {
    if lang == "" || level == "" then AppendixStep(v, v, [])
    else
      var pending := v.(panels := LoadingPanels(lang, level));
      var l := GetAppendixData(v.cache, fetch, lang, level);
      var panels := match l.result
        case Ok(b) => if RenderThrows(b) then FailedPanels() else RenderedPanels(b)
        case Err(_) => FailedPanels();
      AppendixStep(pending, AppendixView(panels, l.cache), l.requests)
  }

  /** The bundle is cached before it is rendered, so a bundle that makes a
      render function throw stays cached: every later load of the pair fails
      on all four panels without requesting anything. */
  lemma CachedRenderFailureRepeats(v: AppendixView, fetch: Fetcher, lang: string, level: string)
    requires lang != "" && level != ""
    requires CacheKey(lang, level) in v.cache && RenderThrows(v.cache[CacheKey(lang, level)])
    ensures LoadAppendixBundle(v, fetch, lang, level).settled == AppendixView(FailedPanels(), v.cache)
    ensures LoadAppendixBundle(v, fetch, lang, level).requests == []
  {
  }

  /** A freshly fetched bundle with a null grammar topic fails every panel,
      whatever the other files hold, and is cached all the same. */
  lemma NullTopicFailsEveryPanel(v: AppendixView, fetch: Fetcher, lang: string, level: string, b: Bundle)
    requires lang != "" && level != "" && CacheKey(lang, level) !in v.cache
    requires FetchBundle(fetch, lang, level) == Ok(b)
    requires |ArrayField(b.grammar, "topics")| > 0 && ArrayField(b.grammar, "topics")[0] == JNull
    ensures LoadAppendixBundle(v, fetch, lang, level).settled == AppendixView(FailedPanels(), v.cache[CacheKey(lang, level) := b])
  {
  }

  /** The level the refilled picker selects: the language's first level id,
      or '' when the language is unlisted or has no levels. */
  function FirstLevel(languages: seq<Manifest.LanguageEntry>, code: string): string {
    var meta := match Manifest.FindLanguage(languages, code)
                case None => None
                case Some(i) => Some(languages[i]);
    var levels := Manifest.LevelsOf(meta);
    if |levels| > 0 then levels[0].id else ""
  }

  /** `syncAppendixLanguage(code)`: the level picker is refilled for the
      language and its first level is loaded; a language without levels
      clears the panels; an empty code does nothing. */
  function SyncAppendixLanguage(v: AppendixView, languages: seq<Manifest.LanguageEntry>, fetch: Fetcher, code: string): (s: AppendixStep)
    ensures code == "" ==> s == AppendixStep(v, v, [])
    ensures code != "" && FirstLevel(languages, code) != "" ==>
              s == LoadAppendixBundle(v, fetch, code, FirstLevel(languages, code))
    ensures code != "" && FirstLevel(languages, code) == "" ==>
              s.settled.panels == ClearedPanels() && s.requests == [] && s.settled.cache == v.cache
  {
    if code == "" then AppendixStep(v, v, [])
    else
      var levelValue := FirstLevel(languages, code);
      if levelValue != "" then LoadAppendixBundle(v, fetch, code, levelValue)
      else
        var cleared := v.(panels := ClearedPanels());
        AppendixStep(cleared, cleared, [])
  }

  /** Switching the appendix language requests nothing but the four files of
      the language's first level, and requests them exactly when that bundle
      is not cached yet; afterwards the bundle is cached whenever it loaded. */
  lemma SyncRequestsOnlyFirstLevel(v: AppendixView, languages: seq<Manifest.LanguageEntry>, fetch: Fetcher, code: string)
    ensures var s := SyncAppendixLanguage(v, languages, fetch, code);
            var level := FirstLevel(languages, code);
            && (s.requests != [] ==> s.requests == BundlePaths(code, level))
            && (s.requests != [] <==> code != "" && level != "" && CacheKey(code, level) !in v.cache)
            && (code != "" && level != "" && FetchBundle(fetch, code, level).Ok? ==> CacheKey(code, level) in s.settled.cache)
  {
  }
}

=== FILE: manifest.dfy ===
/** The language manifest (`data/languages/manifest.json`) and the rules that
    pick a language and a level from it: the static page script's picker and
    initial choice, and the React appendix page's initial choice and level
    choice. */
module Manifest {
  import opened Wrappers
  import Text
  import Seqs

  datatype LevelEntry = LevelEntry(id: string, caption: Option<string>)

  /** One manifest entry; `levels` is `None` when absent or null. */
  datatype LanguageEntry = LanguageEntry(
    code: string,
    name: string,
    nativeName: Option<string>,
    status: Option<string>,
    levels: Option<seq<LevelEntry>>)

  /** `languages` is `None` when the field is absent. */
  datatype Manifest = Manifest(languages: Option<seq<LanguageEntry>>, defaultLanguage: Option<string>)

  /** JavaScript truthiness of an optional string. */
  predicate Truthy(s: Option<string>) {
    s.Some? && s.value != ""
  }

  /** A language is offered for use when it has no status or its status is "live". */
  predicate IsLive(e: LanguageEntry) {
    !Truthy(e.status) || e.status.value == "live"
  }

  /** Index of the first live language. */
  function FirstLive(langs: seq<LanguageEntry>): (r: Option<nat>)
    ensures r.Some? ==> r.value < |langs| && IsLive(langs[r.value])
                        && forall j :: 0 <= j < r.value ==> !IsLive(langs[j])
    ensures r.None? ==> forall j :: 0 <= j < |langs| ==> !IsLive(langs[j])
  {
    Seqs.FindFirst(langs, IsLive)
  }

  /** Index of the first entry with the given code (`languages.find(lang => lang.code === code)`). */
  function FindLanguage(langs: seq<LanguageEntry>, code: string): (r: Option<nat>)
    ensures r.Some? ==> r.value < |langs| && langs[r.value].code == code
                        && forall j :: 0 <= j < r.value ==> langs[j].code != code
    ensures r.None? ==> forall j :: 0 <= j < |langs| ==> langs[j].code != code
  {
    Seqs.FindFirst(langs, (e: LanguageEntry) => e.code == code)
  }

  predicate Lists(langs: seq<LanguageEntry>, code: string) {
    exists i :: 0 <= i < |langs| && langs[i].code == code
  }

  const ComingSoon := " - coming soon"

  /** An `<option>` of the static page's language picker. */
  datatype PickerOption = PickerOption(value: string, text: string, disabled: bool)

  /** How a template literal prints an optional string. */
  function Printed(s: Option<string>): string {
    s.GetOr("undefined")
  }

  /** The picker option for one manifest entry: `name (nativeName)`, disabled
      and marked " - coming soon" exactly when the entry is not live. */
  function LanguageOption(e: LanguageEntry): (o: PickerOption)
    ensures o.value == e.code
    ensures o.disabled <==> !IsLive(e)
    ensures Text.EndsWith(o.text, ComingSoon) <==> o.disabled
    ensures var base := e.name + " (" + Printed(e.nativeName) + ")";
            |base| <= |o.text| && o.text[..|base|] == base
  {
    var base := e.name + " (" + Printed(e.nativeName) + ")";
    var disabled := Truthy(e.status) && e.status.value != "live";
    var text := if disabled then base + ComingSoon else base;
    assert !disabled ==> text[|text| - 1] == ')';
    assert text[..|base|] == base;
    PickerOption(e.code, text, disabled)
  }

  /** `populateLanguagePicker(languages = [])`: one option per entry, in manifest order. */
  function LanguagePicker(languages: Option<seq<LanguageEntry>>): (r: seq<PickerOption>)
    ensures languages.None? ==> r == []
    ensures languages.Some? ==> |r| == |languages.value|
    ensures languages.Some? ==>
              forall i :: 0 <= i < |r| ==> r[i] == LanguageOption(languages.value[i])
  {
    match languages
    case None => []
    case Some(langs) => seq(|langs|, i requires 0 <= i < |langs| => LanguageOption(langs[i]))
  }

  /** The static page script's initial language: nothing without a languages
      array, else the default language as given (listed or not), else the
      first live entry's code, else nothing. */
  function ResolveInitialLanguage(m: Option<Manifest>): (r: Option<string>)
    ensures m.None? || m.value.languages.None? ==> r.None?
    ensures m.Some? && m.value.languages.Some? && Truthy(m.value.defaultLanguage) ==>
              r == m.value.defaultLanguage
    ensures m.Some? && m.value.languages.Some? && !Truthy(m.value.defaultLanguage) ==>
              var langs := m.value.languages.value;
              && (r.Some? <==> exists i :: 0 <= i < |langs| && IsLive(langs[i]))
              && (r.Some? ==> exists i :: 0 <= i < |langs| && IsLive(langs[i]) && langs[i].code == r.value
                                          && forall j :: 0 <= j < i ==> !IsLive(langs[j]))
  {
    if m.None? || m.value.languages.None? then None
    else if Truthy(m.value.defaultLanguage) then m.value.defaultLanguage
    else match FirstLive(m.value.languages.value)
      case None => None
      case Some(i) => Some(m.value.languages.value[i].code)
  }

  /** The React appendix page's initial language: '' without languages; a
      requested code only if some entry lists it; then the default language;
      then the first live entry's code; else ''. */
  function ResolveInitialLanguageForAppendix(m: Option<Manifest>, requested: Option<string>): (r: string)
    ensures m.None? || m.value.languages.None? ==> r == ""
    ensures (m.Some? && m.value.languages.Some? && Truthy(requested)
             && Lists(m.value.languages.value, requested.value)) ==> r == requested.value
    ensures m.Some? && m.value.languages.Some?
            && !(Truthy(requested) && Lists(m.value.languages.value, requested.value)) ==>
              var langs := m.value.languages.value;
              && (Truthy(m.value.defaultLanguage) ==> r == m.value.defaultLanguage.value)
              && (!Truthy(m.value.defaultLanguage) && (forall j :: 0 <= j < |langs| ==> !IsLive(langs[j])) ==> r == "")
              && (!Truthy(m.value.defaultLanguage) ==>
                    forall i :: 0 <= i < |langs| && IsLive(langs[i]) && (forall j :: 0 <= j < i ==> !IsLive(langs[j]))
                                ==> r == langs[i].code)
  {
    if m.None? || m.value.languages.None? then ""
    else
      var langs := m.value.languages.value;
      if Truthy(requested) && FindLanguage(langs, requested.value).Some? then requested.value
      else if Truthy(m.value.defaultLanguage) then m.value.defaultLanguage.value
      else match FirstLive(langs)
        case None => ""
        case Some(i) => langs[i].code
  }

  /** A language the appendix page resolves to is listed in the manifest or
      is its default language. */
  lemma ResolvedIsListedOrDefault(m: Option<Manifest>, requested: Option<string>)
    ensures var r := ResolveInitialLanguageForAppendix(m, requested);
            r != "" ==> && m.Some? && m.value.languages.Some?
                        && (Lists(m.value.languages.value, r) || m.value.defaultLanguage == Some(r))
  {
  }

  /** Without a usable request the two pages agree: the appendix page's ''
      is the static script's null. */
  lemma ResolveVariantsAgree(m: Option<Manifest>, requested: Option<string>)
    requires !Truthy(requested) || m.None? || m.value.languages.None?
             || !Lists(m.value.languages.value, requested.value)
    ensures ResolveInitialLanguageForAppendix(m, requested) == ResolveInitialLanguage(m).GetOr("")
  {
  }

  /** A requested code the manifest does not list never wins over the default. */
  lemma UnlistedRequestIgnored(m: Manifest, requested: string)
    requires m.languages.Some? && !Lists(m.languages.value, requested)
    ensures ResolveInitialLanguageForAppendix(Some(m), Some(requested)) ==
            ResolveInitialLanguageForAppendix(Some(m), None)
  {
  }

  /** The levels a manifest entry offers, `[]` when it has none. */
  function LevelsOf(meta: Option<LanguageEntry>): seq<LevelEntry> {
    if meta.Some? && meta.value.levels.Some? then meta.value.levels.value else []
  }

  predicate Offers(levels: seq<LevelEntry>, id: string) {
    exists i :: 0 <= i < |levels| && levels[i].id == id
  }

  /** The appendix page's level choice for a language: the requested level if
      the language offers it, else its first level, else ''. The result is
      always '' or a level the language offers. */
  function ChooseLevel(meta: Option<LanguageEntry>, requested: Option<string>): (r: string)
    ensures requested.Some? && Offers(LevelsOf(meta), requested.value) ==> r == requested.value
    ensures !(requested.Some? && Offers(LevelsOf(meta), requested.value)) ==>
              r == (if |LevelsOf(meta)| > 0 then LevelsOf(meta)[0].id else "")
    ensures r == "" || Offers(LevelsOf(meta), r)
  {
    var levels := LevelsOf(meta);
    var defaultLevel := if |levels| > 0 then levels[0].id else "";
    if requested.Some? && exists i :: 0 <= i < |levels| && levels[i].id == requested.value
    then requested.value
    else defaultLevel
  }

  /** Choosing again with the chosen level as the request changes nothing. */
  lemma ChooseLevelStable(meta: Option<LanguageEntry>, requested: Option<string>)
    requires ChooseLevel(meta, requested) != ""
    ensures ChooseLevel(meta, Some(ChooseLevel(meta, requested))) == ChooseLevel(meta, requested)
  {
  }
}

=== FILE: panels.dfy ===
/** The per-panel status record `{ message, busy, error }` used by the
    appendix (both the static page script and the React page) and by the
    grammar-topic page, and the four appendix panels. */
module Panels {

  datatype PanelStatus = PanelStatus(message: string, busy: bool, error: bool)

  /** The four appendix panels, in display order grammar, vocabulary,
      conversation, patterns. */
  datatype PanelSet = PanelSet(
    grammar: PanelStatus,
    vocabulary: PanelStatus,
    conversation: PanelStatus,
    patterns: PanelStatus)
  {
    function Statuses(): seq<PanelStatus> {
      [grammar, vocabulary, conversation, patterns]
    }

    predicate AllBusy() {
      forall k :: 0 <= k < 4 ==> Statuses()[k].busy
    }

    predicate NoneBusy() {
      forall k :: 0 <= k < 4 ==> !Statuses()[k].busy
    }

    predicate AllError() {
      forall k :: 0 <= k < 4 ==> Statuses()[k].error
    }

    predicate NoneError() {
      forall k :: 0 <= k < 4 ==> !Statuses()[k].error
    }
  }

  /** A status with neither the busy nor the error flag, which is what the
      page scripts' default options produce. */
  function Plain(message: string): PanelStatus {
    PanelStatus(message, false, false)
  }

  function Uniform(s: PanelStatus): PanelSet {
    PanelSet(s, s, s, s)
  }
}

=== FILE: pattern_learning.dfy ===
/** Sentence-pattern practice: the learner picks a pattern, types answers
    to its questions, and checks them all at once, case-insensitively. */
module PatternLearning {
  import opened Wrappers
  import Text

  datatype Example = Example(sentence: string, translation: string)

  datatype Question = Question(prompt: string, answer: string)

  datatype Pattern = Pattern(id: string, title: string, explanation: string, examples: seq<Example>, practice: seq<Question>)

  /** The selected pattern, the typed answers by question index, and
      whether the verdicts are shown. */
  datatype PatternState = PatternState(selected: Option<Pattern>, answers: map<nat, string>, showAnswers: bool)

  const Initial := PatternState(None, map[], false)

  /** `handlePatternSelect(pattern)`: all answers cleared, verdicts hidden. */
  function Select(s: PatternState, p: Pattern): (r: PatternState)
    ensures r.selected == Some(p) && r.answers == map[] && !r.showAnswers
  {
    PatternState(Some(p), map[], false)
  }

  /** `handleAnswerChange(index, value)`: only the answer at `index` changes. */
  function AnswerChange(s: PatternState, index: nat, value: string): (r: PatternState)
    ensures index in r.answers && r.answers[index] == value
    ensures forall j :: j != index ==> (j in r.answers <==> j in s.answers)
    ensures forall j :: j != index && j in s.answers ==> r.answers[j] == s.answers[j]
    ensures r.selected == s.selected && r.showAnswers == s.showAnswers
  {
    s.(answers := s.answers[index := value])
  }

  /** `checkAnswers`: the verdicts are shown. */
  function Check(s: PatternState): (r: PatternState)
    ensures r.showAnswers && r == s.(showAnswers := true)
  {
    s.(showAnswers := true)
  }

  lemma CheckIdempotent(s: PatternState)
    ensures Check(Check(s)) == Check(s)
  {
  }

  /** An answer is correct when it was typed and equals the expected answer
      after lower-casing both; there is no trimming. */
  predicate IsCorrect(answers: map<nat, string>, index: nat, expected: string) {
    index in answers && Text.Lower(answers[index]) == Text.Lower(expected)
  }

  /** Letter case never matters, surrounding spaces always do, and an
      untyped answer is never correct. */
  lemma CorrectnessIgnoresCaseOnly(answers: map<nat, string>, index: nat, expected: string)
    ensures index !in answers ==> !IsCorrect(answers, index, expected)
    ensures expected != "" ==> IsCorrect(answers[index := Text.Upper(expected)], index, expected)
    ensures !IsCorrect(answers[index := " " + expected], index, expected)
  {
    var up := Text.Upper(expected);
    assert Text.Lower(up) == Text.Lower(expected) by {
      forall i | 0 <= i < |expected| ensures Text.Lower(up)[i] == Text.Lower(expected)[i] {
      }
    }
    assert |Text.Lower(" " + expected)| != |Text.Lower(expected)|;
  }

  /** The verdict under question `index` once answers are shown. */
  function Verdict(s: PatternState, index: nat, q: Question): (r: Option<string>)
    ensures r.None? <==> !s.showAnswers
    ensures r.Some? ==> (r.value == "\U{2713} Correct!" <==> IsCorrect(s.answers, index, q.answer))
  {
    if !s.showAnswers then None
    else if IsCorrect(s.answers, index, q.answer) then Some("\U{2713} Correct!")
    else Some("\U{2717} The correct answer is: " + q.answer)
  }

  /** The text in the answer box: the typed answer or ''. */
  function InputValue(s: PatternState, index: nat): string {
    if index in s.answers then s.answers[index] else ""
  }

  const Placeholder := "No patterns available for this language."

  /** One practice question on screen: its prompt, the answer box's text
      and, once checked, its verdict. */
  datatype Row = Row(prompt: string, input: string, verdict: Option<string>)

  /** What the module shows: the placeholder, or the pattern list with the
      selected pattern's practice rows. */
  datatype Screen = Empty(message: string) | Patterns(practice: Option<seq<Row>>)

  /** A missing pattern list shows only the placeholder; a selected pattern
      shows one row per practice question, in order, each with its typed
      answer and, once checked, its verdict. */
  function Render(patterns: Option<seq<Pattern>>, s: PatternState): (v: Screen)
    ensures v.Empty? <==> patterns.None?
    ensures v.Empty? ==> v.message == Placeholder
    ensures v.Patterns? ==> (v.practice.Some? <==> s.selected.Some?)
    ensures v.Patterns? && v.practice.Some? ==>
              var questions := s.selected.value.practice;
              && |v.practice.value| == |questions|
              && forall i :: 0 <= i < |questions| ==>
                   && v.practice.value[i].prompt == questions[i].prompt
                   && v.practice.value[i].input == InputValue(s, i)
                   && (v.practice.value[i].verdict.Some? <==> s.showAnswers)
                   && (v.practice.value[i].verdict == Some("\U{2713} Correct!") <==>
                         s.showAnswers && IsCorrect(s.answers, i, questions[i].answer))
  {
    if patterns.None? then Empty(Placeholder)
    else match s.selected
      case None => Patterns(None)
      case Some(p) =>
        Patterns(Some(seq(|p.practice|, i requires 0 <= i < |p.practice| =>
          Row(p.practice[i].prompt, InputValue(s, i), Verdict(s, i, p.practice[i])))))
  }
}

=== FILE: quick_check.dfy ===
/** The grammar topic's interactive exercises: each card checks a typed or
    chosen answer against the accepted answers after trimming and
    lower-casing, and can reveal the answers. */
module QuickCheck {
  import opened Wrappers
  import Text

  /** `item.answer`: an array of accepted answers, a single one, or no
      `answer` field at all (which `normalize`'s default reads as ''). */
  datatype Answer = Many(answers: seq<string>) | One(answer: string) | Missing

  /** `item.type === 'multiple-choice'` or any other type (typed answer). */
  datatype Kind = MultipleChoice | FreeText

  datatype Item = Item(kind: Kind, prompt: string, answer: Answer, options: seq<string>, hint: Option<string>)

  datatype Status = Idle | Correct | Incorrect | Revealed

  datatype Card = Card(userInput: string, selectedOption: string, status: Status, showHint: bool)

  const NewCard := Card("", "", Idle, false)

  /** `normalize(value)`: trimmed and lower-cased. */
  function Normalize(s: string): string {
    Text.Lower(Text.Trim(s))
  }

  lemma {:induction false} TrimOfTrimmed(s: string)
    ensures var t := Text.Trim(s);
            t == [] || (!Text.IsJsSpace(t[0]) && !Text.IsJsSpace(t[|t| - 1]))
  {
    var u := Text.TrimRight(s, Text.IsJsSpace);
    var t := Text.TrimLeft(u, Text.IsJsSpace);
    if t != [] {
      assert t[|t| - 1] == u[|u| - 1];
    }
  }

  /** Normalising twice is normalising once: lower-casing moves no
      whitespace, so the trimmed ends stay trimmed. */
  lemma NormalizeIdempotent(s: string)
    ensures Normalize(Normalize(s)) == Normalize(s)
  {
    var t := Text.Trim(s);
    TrimOfTrimmed(s);
    Text.LowerKeepsTrimmed(t);
    Text.LowerTwice(t);
  }

  /** The accepted answers: every array element normalised, the single
      answer normalised, or just '' when the item has no answer. */
  function AcceptedAnswers(a: Answer): (r: seq<string>)
    ensures a.Many? ==> |r| == |a.answers| && forall i :: 0 <= i < |r| ==> r[i] == Normalize(a.answers[i])
    ensures a.One? ==> r == [Normalize(a.answer)]
    ensures a.Missing? ==> r == [""]
  {
    match a
    case Many(answers) => seq(|answers|, i requires 0 <= i < |answers| => Normalize(answers[i]))
    case One(answer) => [Normalize(answer)]
    case Missing => [Normalize("")]
  }

  /** The input a submission checks: the chosen option for a multiple-choice
      item, the typed text otherwise. */
  function Candidate(item: Item, card: Card): string {
    if item.kind == MultipleChoice then card.selectedOption else card.userInput
  }

  /** A candidate is accepted when some listed answer normalises to what
      the candidate normalises to: surrounding whitespace and letter case
      never matter. */
  predicate Accepts(a: Answer, candidate: string) {
    match a
    case Many(answers) => exists k :: 0 <= k < |answers| && Normalize(answers[k]) == Normalize(candidate)
    case One(answer) => Normalize(answer) == Normalize(candidate)
    case Missing => Text.Trim(candidate) == []
  }

  /** Looking the normalised candidate up in the accepted-answer list is
      exactly acceptance. */
  lemma AcceptsIffListed(a: Answer, candidate: string)
    ensures Accepts(a, candidate) <==> Normalize(candidate) in AcceptedAnswers(a)
  {
    var r := AcceptedAnswers(a);
    var c := Normalize(candidate);
    if a.Missing? {
      assert r == [""];
      assert |c| == |Text.Trim(candidate)|;
    } else if a.Many? {
      if Accepts(a, candidate) {
        var k :| 0 <= k < |a.answers| && Normalize(a.answers[k]) == c;
        assert r[k] == c;
      }
      if c in r {
        var k :| 0 <= k < |r| && r[k] == c;
        assert Normalize(a.answers[k]) == c;
      }
    }
  }

  /** `handleSubmit`: correct exactly when the candidate is accepted;
      nothing but the status changes. */
  function Submit(item: Item, card: Card): (r: Card)
    ensures r == card.(status := r.status)
    ensures r.status == Correct <==> Accepts(item.answer, Candidate(item, card))
    ensures r.status == Correct || r.status == Incorrect
  {
    AcceptsIffListed(item.answer, Candidate(item, card));
    card.(status := if Normalize(Candidate(item, card)) in AcceptedAnswers(item.answer) then Correct else Incorrect)
  }

  /** Submitting twice gives the same verdict as submitting once. */
  lemma SubmitIdempotent(item: Item, card: Card)
    ensures Submit(item, Submit(item, card)) == Submit(item, card)
  {
  }

  /** `handleReveal`: the answers are shown whatever the state. */
  function Reveal(card: Card): (r: Card)
    ensures r.status == Revealed && r == card.(status := Revealed)
  {
    card.(status := Revealed)
  }

  /** Typing resets the verdict. */
  function TypeInput(card: Card, value: string): (r: Card)
    ensures r.userInput == value && r.status == Idle
    ensures r.selectedOption == card.selectedOption && r.showHint == card.showHint
  {
    card.(userInput := value, status := Idle)
  }

  /** Choosing an option resets the verdict. */
  function SelectOption(card: Card, option: string): (r: Card)
    ensures r.selectedOption == option && r.status == Idle
    ensures r.userInput == card.userInput && r.showHint == card.showHint
  {
    card.(selectedOption := option, status := Idle)
  }

  function ToggleHint(card: Card): (r: Card)
    ensures r.showHint != card.showHint && r == card.(showHint := r.showHint)
  {
    card.(showHint := !card.showHint)
  }

  /** The raw answers as the reveal label prints them. */
  function RawAnswers(a: Answer): string {
    match a
    case Many(answers) => Text.Join(answers, ", ")
    case One(answer) => answer
    case Missing => "undefined"
  }

  function StatusLabel(item: Item, status: Status): string {
    match status
    case Idle => "Awaiting answer"
    case Correct => "Great! Correct answer."
    case Incorrect => "Try again."
    case Revealed => "Answer: " + RawAnswers(item.answer)
  }

  /** The status line under a card: shown exactly when the card is not idle;
      after a reveal it lists the raw answers joined by ", ". */
  function StatusLine(item: Item, card: Card): (r: Option<string>)
    ensures r.Some? <==> card.status != Idle
    ensures card.status == Revealed ==> r == Some("Answer: " + RawAnswers(item.answer))
  {
    if card.status == Idle then None else Some(StatusLabel(item, card.status))
  }

  /** An item without an answer takes exactly a blank submission as
      correct, and its reveal reads "Answer: undefined". */
  lemma MissingAnswerAcceptsBlank(item: Item, card: Card)
    requires item.answer.Missing?
    ensures Submit(item, card).status == Correct <==> Text.Trim(Candidate(item, card)) == []
    ensures StatusLine(item, Reveal(card)) == Some("Answer: undefined")
  {
    assert Accepts(item.answer, Candidate(item, card)) <==> Text.Trim(Candidate(item, card)) == [];
    assert RawAnswers(item.answer) == "undefined";
    assert "Answer: " + "undefined" == "Answer: undefined";
  }

  const Placeholder := "No interactive checks configured yet."

  /** What the exercise list shows: the placeholder for no items, otherwise
      one fresh card per item. */
  datatype View = Empty(message: string) | Cards(cards: seq<Card>)

  function Render(items: seq<Item>): (v: View)
    ensures items == [] <==> v == Empty(Placeholder)
    ensures v.Cards? ==> |v.cards| == |items| && forall i :: 0 <= i < |v.cards| ==> v.cards[i] == NewCard
  {
    if items == [] then Empty(Placeholder) else Cards(seq(|items|, _ => NewCard))
  }
}

=== FILE: search_params.dfy ===
/** The page's URL query string, modelled the way URLSearchParams keeps it: an
    ordered list of name/value pairs in which a name may repeat. */
module SearchParams {
  import opened Wrappers

  type Params = seq<(string, string)>

  /** `params.get(key)`: the value of the first pair named `key`. */
  function Get(p: Params, key: string): (r: Option<string>)
    ensures r.None? <==> forall i :: 0 <= i < |p| ==> p[i].0 != key
    ensures r.Some? ==> exists i :: 0 <= i < |p| && p[i] == (key, r.value)
                                     && forall j :: 0 <= j < i ==> p[j].0 != key
    decreases |p|
  {
    if |p| == 0 then None
    else if p[0].0 == key then Some(p[0].1)
    else Get(p[1..], key)
  }

  /** The pairs whose names are outside `keys`, in their original order. */
  function Omit(p: Params, keys: set<string>): (r: Params)
    ensures forall i :: 0 <= i < |r| ==> r[i].0 !in keys
    ensures forall x :: x in r <==> x in p && x.0 !in keys
    ensures |r| <= |p|
    decreases |p|
  {
    if |p| == 0 then []
    else if p[0].0 in keys then Omit(p[1..], keys)
    else [p[0]] + Omit(p[1..], keys)
  }

  /** Omitting from a list with one more pair at the end omits from the list
      and then keeps that pair exactly when its name is not removed; with
      `Omit([], keys) == []` this fixes the order of the kept pairs. */
  lemma {:induction false} OmitAppend(p: Params, x: (string, string), keys: set<string>)
    ensures Omit(p + [x], keys) == Omit(p, keys) + (if x.0 in keys then [] else [x])
    decreases |p|
  {
    if |p| == 0 {
      assert p + [x] == [x];
      assert [x][1..] == [];
    } else {
      assert (p + [x])[0] == p[0];
      assert (p + [x])[1..] == p[1..] + [x];
      OmitAppend(p[1..], x, keys);
    }
  }

  /** A list none of whose names is removed is kept whole. */
  lemma {:induction false} OmitNothing(p: Params, keys: set<string>)
    requires forall i :: 0 <= i < |p| ==> p[i].0 !in keys
    ensures Omit(p, keys) == p
    decreases |p|
  {
    if |p| > 0 {
      OmitNothing(p[1..], keys);
      assert [p[0]] + p[1..] == p;
    }
  }

  /** `params.delete(key)`: every pair named `key` goes. */
  function Delete(p: Params, key: string): Params {
    Omit(p, {key})
  }

  /** `params.set(key, value)`: the first pair named `key` takes the value and
      the later ones go; with no such pair, a new one is appended. */
  function Set(p: Params, key: string, value: string): Params
    decreases |p|
  {
    if |p| == 0 then [(key, value)]
    else if p[0].0 == key then [(key, value)] + Delete(p[1..], key)
    else [p[0]] + Set(p[1..], key, value)
  }

  /** One entry of the object handed to `updateSearchParams`; `None` stands
      for null and undefined. */
  type Assignment = (string, Option<string>)

  /** What one entry leaves behind: null, undefined and '' clear the key. */
  function Effective(value: Option<string>): Option<string> {
    if value.None? || value.value == "" then None else value
  }

  function Apply(p: Params, a: Assignment): Params {
    match Effective(a.1)
    case None => Delete(p, a.0)
    case Some(v) => Set(p, a.0, v)
  }

  /** `updateSearchParams(updates)`: entries applied in order to a copy of
      the current parameters. */
  function Update(p: Params, updates: seq<Assignment>): Params
    decreases |updates|
  {
    if |updates| == 0 then p else Update(Apply(p, updates[0]), updates[1..])
  }

  /** The value the last entry for `key` asks for, or `None` when no entry names it. */
  function LastFor(updates: seq<Assignment>, key: string): Option<Option<string>>
    decreases |updates|
  {
    if |updates| == 0 then None
    else
      var later := LastFor(updates[1..], key);
      if later.Some? then later
      else if updates[0].0 == key then Some(updates[0].1)
      else None
  }

  function Keys(updates: seq<Assignment>): set<string> {
    set i | 0 <= i < |updates| :: updates[i].0
  }

  lemma {:induction false} OmitOmit(p: Params, a: set<string>, b: set<string>)
    ensures Omit(Omit(p, a), b) == Omit(p, a + b)
    decreases |p|
  {
    if |p| > 0 {
      OmitOmit(p[1..], a, b);
    }
  }

  lemma {:induction false} GetOmit(p: Params, keys: set<string>, key: string)
    requires key !in keys
    ensures Get(Omit(p, keys), key) == Get(p, key)
    decreases |p|
  {
    if |p| > 0 {
      GetOmit(p[1..], keys, key);
    }
  }

  /** `set` disturbs no pair of another name: with `key` and its pairs taken
      away, before and after are the same list in the same order. */
  lemma {:induction false} SetFrame(p: Params, key: string, value: string, keys: set<string>)
    requires key in keys
    ensures Omit(Set(p, key, value), keys) == Omit(p, keys)
    decreases |p|
  {
    if |p| > 0 {
      if p[0].0 == key {
        OmitOmit(p[1..], {key}, keys);
        assert {key} + keys == keys;
      } else {
        SetFrame(p[1..], key, value, keys);
      }
    }
  }

  lemma DeleteFrame(p: Params, key: string, keys: set<string>)
    requires key in keys
    ensures Omit(Delete(p, key), keys) == Omit(p, keys)
  {
    OmitOmit(p, {key}, keys);
    assert {key} + keys == keys;
  }

  /** After `set` the key reads back as the value and exactly one pair carries it. */
  lemma {:induction false} SetGetSame(p: Params, key: string, value: string)
    ensures Get(Set(p, key, value), key) == Some(value)
    ensures |Set(p, key, value)| == |Delete(p, key)| + 1
    decreases |p|
  {
    if |p| > 0 && p[0].0 != key {
      SetGetSame(p[1..], key, value);
    }
  }

  /** After `set` every other key reads as before. */
  lemma {:induction false} SetGetOther(p: Params, key: string, value: string, other: string)
    requires other != key
    ensures Get(Set(p, key, value), other) == Get(p, other)
    decreases |p|
  {
    if |p| > 0 {
      if p[0].0 == key {
        GetOmit(p[1..], {key}, other);
      } else {
        SetGetOther(p[1..], key, value, other);
      }
    }
  }

  /** After `delete` the key is absent and every other key reads as before. */
  lemma DeleteGet(p: Params, key: string, other: string)
    requires other != key
    ensures Get(Delete(p, key), key) == None
    ensures Get(Delete(p, key), other) == Get(p, other)
  {
    GetOmit(p, {key}, other);
  }

  /** Every key reads as the last entry for it asks (absent when that entry
      is null, undefined or ''), and a key no entry names reads as before. */
  lemma {:induction false} UpdateGet(p: Params, updates: seq<Assignment>, key: string)
    ensures Get(Update(p, updates), key) ==
              match LastFor(updates, key)
              case None => Get(p, key)
              case Some(v) => Effective(v)
    decreases |updates|
  {
    if |updates| > 0 {
      var a := updates[0];
      UpdateGet(Apply(p, a), updates[1..], key);
      if LastFor(updates[1..], key).None? && a.0 != key {
        match Effective(a.1)
        case None => DeleteGet(p, a.0, key);
        case Some(v) => SetGetOther(p, a.0, v, key);
      } else if LastFor(updates[1..], key).None? {
        match Effective(a.1)
        case None =>
        case Some(v) => SetGetSame(p, a.0, v);
      }
    }
  }

  /** Pairs whose names no entry mentions keep their values, order and repetitions. */
  lemma {:induction false} UpdateFrame(p: Params, updates: seq<Assignment>, keys: set<string>)
    requires Keys(updates) <= keys
    ensures Omit(Update(p, updates), keys) == Omit(p, keys)
    decreases |updates|
  {
    if |updates| > 0 {
      var a := updates[0];
      assert a.0 in Keys(updates);
      assert Keys(updates[1..]) <= Keys(updates) by {
        forall k | k in Keys(updates[1..]) ensures k in Keys(updates) {
          var i :| 0 <= i < |updates[1..]| && updates[1..][i].0 == k;
          assert updates[i + 1].0 == k;
        }
      }
      UpdateFrame(Apply(p, a), updates[1..], keys);
      match Effective(a.1)
      case None => DeleteFrame(p, a.0, keys);
      case Some(v) => SetFrame(p, a.0, v, keys);
    }
  }

  /** An update naming two different keys: each reads as its entry asks, and
      every pair of any other name is kept. */
  lemma UpdateTwo(p: Params, k1: string, v1: Option<string>, k2: string, v2: Option<string>)
    requires k1 != k2
    ensures var q := Update(p, [(k1, v1), (k2, v2)]);
            && Get(q, k1) == Effective(v1)
            && Get(q, k2) == Effective(v2)
            && Omit(q, {k1, k2}) == Omit(p, {k1, k2})
  {
    var us: seq<Assignment> := [(k1, v1), (k2, v2)];
    assert us[1..] == [(k2, v2)] && us[1..][1..] == [];
    assert LastFor(us[1..][1..], k1) == None && LastFor(us[1..][1..], k2) == None;
    assert LastFor(us[1..], k1) == None;
    assert LastFor(us[1..], k2) == Some(v2);
    assert LastFor(us, k1) == Some(v1);
    assert LastFor(us, k2) == Some(v2);
    UpdateGet(p, us, k1);
    UpdateGet(p, us, k2);
    assert Keys(us) == {k1, k2} by {
      assert us[0].0 == k1 && us[1].0 == k2;
    }
    UpdateFrame(p, us, {k1, k2});
  }

  /** An update naming one key: it reads as asked, every other pair is kept. */
  lemma UpdateOne(p: Params, k: string, v: Option<string>)
    ensures var q := Update(p, [(k, v)]);
            && Get(q, k) == Effective(v)
            && Omit(q, {k}) == Omit(p, {k})
  {
    var us: seq<Assignment> := [(k, v)];
    assert us[1..] == [];
    assert LastFor(us, k) == Some(v);
    UpdateGet(p, us, k);
    assert Keys(us) == {k} by {
      assert us[0].0 == k;
    }
    UpdateFrame(p, us, {k});
  }
}

=== FILE: sentence_correction.dfy ===
/** The backend's `/api/correct` rule: two string checks on the submitted
    text, each producing at most one suggestion, and a `corrected` text. */
module SentenceCorrection {
  import Text

  datatype Kind = Capitalization | Punctuation

  datatype Suggestion = Suggestion(kind: Kind, message: string, text: string)

  datatype Response = Response(original: string, suggestions: seq<Suggestion>, corrected: string)

  /** Python's `text[0].isupper()` fails for a non-empty text (digits and
      punctuation included). */
  predicate NeedsCapital(text: string) {
    text != "" && !Text.IsUpper(text[0])
  }

  predicate EndsSentence(s: string) {
    s != "" && s[|s| - 1] in {'.', '!', '?'}
  }

  /** `text.rstrip().endswith(('.', '!', '?'))` fails for a non-empty text. */
  predicate NeedsPunctuation(text: string) {
    text != "" && !EndsSentence(Text.RStrip(text))
  }

  const CapitalMessage := "Sentence should start with a capital letter"
  const PunctuationMessage := "Sentence should end with punctuation"

  function Suggestions(text: string): (r: seq<Suggestion>)
    ensures |r| <= 2
    ensures (exists i :: 0 <= i < |r| && r[i].kind == Capitalization) <==> NeedsCapital(text)
    ensures (exists i :: 0 <= i < |r| && r[i].kind == Punctuation) <==> NeedsPunctuation(text)
    ensures |r| == 2 ==> r[0].kind == Capitalization && r[1].kind == Punctuation
    ensures forall i :: 0 <= i < |r| && r[i].kind == Capitalization ==>
              r[i] == Suggestion(Capitalization, CapitalMessage, Text.Capitalize(text))
    ensures forall i :: 0 <= i < |r| && r[i].kind == Punctuation ==>
              r[i] == Suggestion(Punctuation, PunctuationMessage, Text.RStrip(text) + ".")
  {
    var capital := if NeedsCapital(text) then [Suggestion(Capitalization, CapitalMessage, Text.Capitalize(text))] else [];
    var punctuation := if NeedsPunctuation(text) then [Suggestion(Punctuation, PunctuationMessage, Text.RStrip(text) + ".")] else [];
    var r := capital + punctuation;
    assert NeedsCapital(text) ==> r[0].kind == Capitalization;
    assert NeedsPunctuation(text) ==> r[|r| - 1].kind == Punctuation;
    r
  }

  /** `correct()` as written: `corrected` is the text of the last suggestion,
      or the original when there is none. */
  function Correct(text: string): (r: Response)
    ensures r.original == text
    ensures r.suggestions == Suggestions(text)
    ensures text == "" ==> r.suggestions == [] && r.corrected == text
    ensures r.suggestions == [] ==> r.corrected == text
    ensures NeedsPunctuation(text) ==> r.corrected == Text.RStrip(text) + "."
    ensures NeedsCapital(text) && !NeedsPunctuation(text) ==> r.corrected == Text.Capitalize(text)
  {
    var suggestions := Suggestions(text);
    Response(text, suggestions, if suggestions == [] then text else suggestions[|suggestions| - 1].text)
  }

  /** When both rules fire, `corrected` keeps the lower-case start the first
      rule complained about: "hello" is corrected to "hello.", which the same
      rule then rejects again. */
  lemma CorrectedDropsCapitalisation()
    ensures Correct("hello").suggestions[0].text == "Hello"
    ensures Correct("hello").corrected == "hello."
    ensures NeedsCapital(Correct("hello").corrected)
  {
    assert Text.RStrip("hello") == "hello";
    assert Text.Capitalize("hello") == "Hello";
  }

  /** The text with every suggested fix applied: capitalised when the first
      rule fires, then right-stripped and given a full stop when the second does. */
  function Corrected(text: string): string {
    var capitalised := if NeedsCapital(text) then Text.Capitalize(text) else text;
    if NeedsPunctuation(text) then Text.RStrip(capitalised) + "." else capitalised
  }

  /** `correct()` with `corrected` applying both fixes. */
  function CorrectBoth(text: string): (r: Response)
    ensures r.original == text && r.suggestions == Suggestions(text)
    ensures r.corrected == Corrected(text)
  {
    Response(text, Suggestions(text), Corrected(text))
  }

  /** Capitalising only touches the first character, so right-stripping
      commutes with it. */
  lemma RStripCapitalize(text: string)
    requires text != ""
    ensures |Text.RStrip(Text.Capitalize(text))| == |Text.RStrip(text)|
    ensures Text.RStrip(text) != "" ==> Text.RStrip(Text.Capitalize(text)) == Text.Capitalize(Text.RStrip(text))
  {
    var c := Text.Capitalize(text);
    forall i | 1 <= i < |text| ensures c[i] == text[i] {
      assert c[i] == c[1..][i - 1];
    }
    Text.TrimRightAgrees(c, text, Text.IsPySpace);
    var a := Text.RStrip(text);
    var b := Text.RStrip(c);
    if a != "" {
      assert b == c[..|b|] && a == text[..|a|];
      assert b[1..] == a[1..];
    }
  }

  /** Fixing both rules leaves nothing for either: the corrected text of a
      sentence starting with a letter draws no suggestion at all. */
  lemma CorrectedPassesBothChecks(text: string)
    requires text != "" && (Text.IsLower(text[0]) || Text.IsUpper(text[0]))
    ensures Suggestions(CorrectBoth(text).corrected) == []
  {
    var fixed := Corrected(text);
    var capitalised := if NeedsCapital(text) then Text.Capitalize(text) else text;
    assert Text.IsUpper(capitalised[0]);
    assert !Text.IsPySpace(capitalised[0]);
    RStripCapitalize(text);
    if NeedsPunctuation(text) {
      var stripped := Text.RStrip(capitalised);
      assert |stripped| > 0;
      assert stripped[0] == capitalised[0];
      assert fixed == stripped + ".";
      Text.TrimRightFixed(fixed, Text.IsPySpace);
      assert Text.RStrip(fixed) == fixed;
      assert fixed[0] == capitalised[0];
    } else {
      assert fixed == capitalised;
      assert EndsSentence(Text.RStrip(text));
      var a := Text.RStrip(text);
      if !NeedsCapital(text) {
        assert fixed == text;
      } else {
        assert Text.RStrip(fixed) == Text.Capitalize(a);
        assert a[0] == text[0];
        assert |a| > 1;
        assert Text.Capitalize(a)[1..] == a[1..];
        assert Text.Capitalize(a)[|a| - 1] == Text.Capitalize(a)[1..][|a| - 2];
      }
    }
  }
}

=== FILE: seqs.dfy ===
/** Searching a list, as JavaScript's `find`/`findIndex` do. */
module Seqs {
  import opened Wrappers

  /** The position of the first element satisfying `p`, or `None` when no
      element does. */
  function FindFirst<T>(xs: seq<T>, p: T -> bool): (r: Option<nat>)
    ensures r.Some? ==> r.value < |xs| && p(xs[r.value]) && forall j :: 0 <= j < r.value ==> !p(xs[j])
    ensures r.None? ==> forall j :: 0 <= j < |xs| ==> !p(xs[j])
    decreases |xs|
  {
    if |xs| == 0 then None
    else if p(xs[0]) then Some(0)
    else match FindFirst(xs[1..], p)
      case None => None
      case Some(i) => Some(i + 1)
  }
}

=== FILE: text.dfy ===
/** Character and string helpers shared by every component: an ASCII case
    model, whitespace trimming as JavaScript's trim and Python's rstrip do it,
    joining and splitting, and decimal rendering of counts. */
module Text {

  /** Upper- and lower-case letters of the ASCII case model. */
  predicate IsUpper(c: char) { 'A' <= c <= 'Z' }
  predicate IsLower(c: char) { 'a' <= c <= 'z' }

  function ToUpper(c: char): char {
    if IsLower(c) then (c as int - 32) as char else c
  }

  function ToLower(c: char): char {
    if IsUpper(c) then (c as int + 32) as char else c
  }

  function Upper(s: string): (r: string)
    ensures |r| == |s|
    ensures forall i :: 0 <= i < |s| ==> r[i] == ToUpper(s[i])
  {
    seq(|s|, i requires 0 <= i < |s| => ToUpper(s[i]))
  }

  function Lower(s: string): (r: string)
    ensures |r| == |s|
    ensures forall i :: 0 <= i < |s| ==> r[i] == ToLower(s[i])
  {
    seq(|s|, i requires 0 <= i < |s| => ToLower(s[i]))
  }

  /** Lower-casing twice is lower-casing once. */
  lemma LowerTwice(s: string)
    ensures Lower(Lower(s)) == Lower(s)
  {
    forall i | 0 <= i < |s| ensures Lower(Lower(s))[i] == Lower(s)[i] {
    }
  }

  /** Whitespace removed by JavaScript's String.prototype.trim, restricted to ASCII. */
  predicate IsJsSpace(c: char) {
    c == ' ' || c == '\t' || c == '\n' || c == '\U{000B}' || c == '\U{000C}' || c == '\r'
  }

  /** Whitespace removed by Python's str.rstrip(), restricted to ASCII: the
      JavaScript set plus the four separators U+001C..U+001F. */
  predicate IsPySpace(c: char) {
    IsJsSpace(c) || '\U{001C}' <= c <= '\U{001F}'
  }

  /** Drops the longest run of `space` characters at the end of `s`. */
  function TrimRight(s: string, space: char -> bool): (r: string)
    ensures r <= s
    ensures r == [] || !space(r[|r| - 1])
    ensures forall i :: |r| <= i < |s| ==> space(s[i])
    decreases |s|
  {
    if |s| == 0 || !space(s[|s| - 1]) then s else TrimRight(s[..|s| - 1], space)
  }

  /** Drops the longest run of `space` characters at the start of `s`. */
  function TrimLeft(s: string, space: char -> bool): (r: string)
    ensures |r| <= |s| && r == s[|s| - |r|..]
    ensures r == [] || !space(r[0])
    ensures forall i :: 0 <= i < |s| - |r| ==> space(s[i])
    decreases |s|
  {
    if |s| == 0 || !space(s[0]) then s else TrimLeft(s[1..], space)
  }

  /** JavaScript's `s.trim()`. */
  function Trim(s: string): string {
    TrimLeft(TrimRight(s, IsJsSpace), IsJsSpace)
  }

  /** Python's `s.rstrip()`. */
  function RStrip(s: string): string {
    TrimRight(s, IsPySpace)
  }

  /** A string that has nothing left for `space` trimming at either end is its own trim. */
  lemma TrimLeftFixed(s: string, space: char -> bool)
    requires s == [] || !space(s[0])
    ensures TrimLeft(s, space) == s
  {
  }

  lemma TrimRightFixed(s: string, space: char -> bool)
    requires s == [] || !space(s[|s| - 1])
    ensures TrimRight(s, space) == s
  {
  }
  /** Lower-casing moves no whitespace, so a string trimmed at both ends
      stays trimmed once lower-cased. */
  lemma LowerKeepsTrimmed(t: string)
    requires t == [] || (!IsJsSpace(t[0]) && !IsJsSpace(t[|t| - 1]))
    ensures Trim(Lower(t)) == Lower(t)
  {
    var l := Lower(t);
    if l != [] {
      assert l[0] == ToLower(t[0]);
      assert l[|l| - 1] == ToLower(t[|t| - 1]);
    }
    TrimRightFixed(l, IsJsSpace);
    TrimLeftFixed(l, IsJsSpace);
  }


  /** Two strings that differ at most in the first character, which is
      whitespace in both or in neither, lose the same number of trailing
      characters. */
  lemma {:induction false} TrimRightAgrees(x: string, y: string, space: char -> bool)
    requires |x| == |y|
    requires x != [] ==> (space(x[0]) <==> space(y[0]))
    requires forall i :: 1 <= i < |x| ==> x[i] == y[i]
    ensures |TrimRight(x, space)| == |TrimRight(y, space)|
    decreases |x|
  {
    if |x| > 0 {
      assert space(x[|x| - 1]) <==> space(y[|y| - 1]);
      if space(x[|x| - 1]) {
        TrimRightAgrees(x[..|x| - 1], y[..|y| - 1], space);
      }
    }
  }

  predicate EndsWith(s: string, suffix: string) {
    |suffix| <= |s| && s[|s| - |suffix|..] == suffix
  }

  /** True when `sub` occurs somewhere in `s` (JavaScript's `includes`). */
  predicate Contains(s: string, sub: string)
    decreases |s|
  {
    sub <= s || (|s| > 0 && Contains(s[1..], sub))
  }

  /** `Contains` holds exactly when `sub` starts at some position of `s`. */
  lemma {:induction false} ContainsIffOccurs(s: string, sub: string)
    ensures Contains(s, sub) <==> exists i :: 0 <= i <= |s| && sub <= s[i..]
    decreases |s|
  {
    assert s[0..] == s;
    if sub <= s {
      assert sub <= s[0..];
    } else if |s| > 0 {
      ContainsIffOccurs(s[1..], sub);
      assert Contains(s, sub) == Contains(s[1..], sub);
      if Contains(s[1..], sub) {
        var j :| 0 <= j <= |s[1..]| && sub <= s[1..][j..];
        assert s[1..][j..] == s[j + 1..];
        assert sub <= s[j + 1..];
      }
      if exists i :: 0 <= i <= |s| && sub <= s[i..] {
        var i :| 0 <= i <= |s| && sub <= s[i..];
        assert i != 0;
        assert s[1..][i - 1..] == s[i..];
        assert Contains(s[1..], sub);
      }
    }
  }

  /** `Array.prototype.join(sep)` over strings. */
  function Join(parts: seq<string>, sep: string): string
    decreases |parts|
  {
    if |parts| == 0 then ""
    else if |parts| == 1 then parts[0]
    else parts[0] + sep + Join(parts[1..], sep)
  }

  /** `s.split(sep)` for a one-character separator: always at least one piece. */
  function Split(s: string, sep: char): (r: seq<string>)
    ensures |r| >= 1
    decreases |s|
  {
    if |s| == 0 then [""]
    else if s[0] == sep then [""] + Split(s[1..], sep)
    else
      var rest := Split(s[1..], sep);
      [[s[0]] + rest[0]] + rest[1..]
  }

  /** A piece free of the separator glues onto the first piece of what follows it. */
  lemma {:induction false} SplitPrefix(a: string, b: string, sep: char)
    requires sep !in a
    ensures Split(a + b, sep) == [a + Split(b, sep)[0]] + Split(b, sep)[1..]
    decreases |a|
  {
    if |a| > 0 {
      assert (a + b)[1..] == a[1..] + b;
      assert (a + b)[0] == a[0];
      SplitPrefix(a[1..], b, sep);
      assert [a[0]] + (a[1..] + Split(b, sep)[0]) == a + Split(b, sep)[0];
    } else {
      var r := Split(b, sep);
      assert a + b == b;
      assert a + r[0] == r[0];
      assert [r[0]] + r[1..] == r;
    }
  }

  /** Splitting a join on the same separator recovers the parts, provided no
      part contains the separator. */
  lemma {:induction false} SplitJoin(parts: seq<string>, sep: char)
    requires |parts| >= 1
    requires forall k :: 0 <= k < |parts| ==> sep !in parts[k]
    ensures Split(Join(parts, [sep]), sep) == parts
    decreases |parts|
  {
    if |parts| == 1 {
      SplitPrefix(parts[0], "", sep);
      assert parts[0] + "" == parts[0];
    } else {
      var tail := Join(parts[1..], [sep]);
      SplitJoin(parts[1..], sep);
      assert Join(parts, [sep]) == parts[0] + ([sep] + tail);
      SplitPrefix(parts[0], [sep] + tail, sep);
      assert ([sep] + tail)[1..] == tail;
      assert Split([sep] + tail, sep) == [""] + parts[1..];
      assert parts[0] + "" == parts[0];
      assert [parts[0]] + parts[1..] == parts;
    }
  }

  predicate IsDigit(c: char) { '0' <= c <= '9' }

  function DigitChar(d: nat): (c: char)
    requires d < 10
    ensures IsDigit(c)
  {
    ('0' as int + d) as char
  }

  function DigitValue(c: char): nat
    requires IsDigit(c)
  {
    c as int - '0' as int
  }

  /** Decimal rendering of a count, as JavaScript template literals print a non-negative integer. */
  function NatToString(n: nat): (r: string)
    ensures |r| >= 1
    ensures forall i :: 0 <= i < |r| ==> IsDigit(r[i])
    decreases n
  {
    if n < 10 then [DigitChar(n)] else NatToString(n / 10) + [DigitChar(n % 10)]
  }

  function ParseNat(s: string): nat
    requires forall i :: 0 <= i < |s| ==> IsDigit(s[i])
    decreases |s|
  {
    if |s| == 0 then 0 else ParseNat(s[..|s| - 1]) * 10 + DigitValue(s[|s| - 1])
  }

  /** Reading the decimal text back yields the count, so distinct counts print differently. */
  lemma {:induction false} ParseNatToString(n: nat)
    ensures ParseNat(NatToString(n)) == n
    decreases n
  {
    var r := NatToString(n);
    if n < 10 {
      assert r[..|r| - 1] == [];
    } else {
      ParseNatToString(n / 10);
      assert r[..|r| - 1] == NatToString(n / 10);
    }
  }

  /** The length of the run of digits at the start of `s`. */
  function DigitRun(s: string): (k: nat)
    ensures k <= |s|
    ensures forall i :: 0 <= i < k ==> IsDigit(s[i])
    ensures k < |s| ==> !IsDigit(s[k])
    decreases |s|
  {
    if |s| > 0 && IsDigit(s[0]) then 1 + DigitRun(s[1..]) else 0
  }

  /** A run of digits followed by a non-digit is read off exactly. */
  lemma {:induction false} DigitRunOf(digits: string, rest: string)
    requires forall i :: 0 <= i < |digits| ==> IsDigit(digits[i])
    requires rest != [] && !IsDigit(rest[0])
    ensures DigitRun(digits + rest) == |digits|
    decreases |digits|
  {
    if |digits| > 0 {
      assert (digits + rest)[1..] == digits[1..] + rest;
      DigitRunOf(digits[1..], rest);
    } else {
      assert digits + rest == rest;
    }
  }

  lemma NatToStringInjective(m: nat, n: nat)
    requires NatToString(m) == NatToString(n)
    ensures m == n
  {
    ParseNatToString(m);
    ParseNatToString(n);
  }

  /** JavaScript's `capitalize` helper and Python's `s[0].upper() + s[1:]`: the
      first character upper-cased, the rest unchanged, the empty string kept. */
  function Capitalize(s: string): (r: string)
    ensures |r| == |s|
    ensures s != [] ==> r[0] == ToUpper(s[0]) && r[1..] == s[1..]
  {
    if s == [] then [] else [ToUpper(s[0])] + s[1..]
  }

  lemma CapitalizeIdempotent(s: string)
    ensures Capitalize(Capitalize(s)) == Capitalize(s)
  {
  }
}

=== FILE: wrappers.dfy ===
/** Optional values and fallible results, standing in for JavaScript's
    null/undefined and for thrown errors or rejected promises. */
module Wrappers {

  datatype Option<+T> = None | Some(value: T) {
    function GetOr(default: T): T {
      match this
      case Some(v) => v
      case None => default
    }
  }

  datatype Result<+T, +E> = Ok(value: T) | Err(error: E)
}
